=== FILE: README.md ===
# minha-jogatina, modelled in Dafny

minha-jogatina is a small tracker for a personal game collection. This project
models its core as pure Dafny functions over immutable data and proves what that
core promises.

- **The game entity (`Jogo`).** A game has a title, a genre, a platform, the hours
  played, a lifecycle status and an optional rating.
  - Every change goes through a validating setter.
  - Games compare by case-insensitive title and platform, and order by hours.
  - The three platform subclasses fix the platform.
  - `reiniciar_jogo` resets a started game; `__hash__` hashes its identity.
- **The collection (`Colecao`).** A named, ordered list that refuses a game equal
  to one already present and removes by title.
- **The report engine (`Relatorio`).** Totals, the mean rating of finished games,
  per-status percentages, a top 5, filters, a title search and two stable sorts.
- **The command-line helpers.** Both `main.py` files carry the same helpers:
  - the status lookup with its fallback;
  - the rating range check;
  - conversion between a game and the JSON dictionary it is stored as, including
    the platform dispatch;
  - the rules `adicionar-jogo`, `atualizar-jogo` and `remover-jogo` apply to a
    collection's list of stored games.

  Only the top-level `main.py` also has `reiniciar-jogo`, whose rule is modelled
  too. `src/minha_jogatina/main.py` is an earlier copy of the shared helpers and
  commands. It is modelled once, and rows below cite both copies.

Modules, one per file:

| file | module | models |
|---|---|---|
| wrappers.dfy | `Wrappers` | `Option` and `Result` (a `ValueError` or a refusal becomes `Failure`) |
| text.dfy | `Text` | ASCII `lower()`, the `isspace()` set behind `strip()`, substring `in`, `str(n)` |
| seqs.dfy | `Seqs` | list comprehensions: order-preserving filter and map |
| sorting.dfy | `Sorting` | `sorted(..., key=k, reverse=True)` as a stable descending insertion sort |
| games.dfy | `Games` | `models/jogo.py` and the status enumeration |
| platforms.dfy | `Platforms` | `models/plataformas.py` |
| modifications.dfy | `Modifications` | `modificacoes.py` |
| collections.dfy | `Collections` | `colecoes/colecao.py` |
| reports.dfy | `Reports` | `models/relatorio.py` |
| records.dfy | `Records` | `_status_de_str`, `validar_avaliacao`, `_jogo_de_dict`, `_jogo_para_dict`, loading a collection |
| commands.dfy | `Commands` | the list rules of the add, update, remove and reset commands |

Conventions:

- Floats are modelled as `real`.
- A stored game dictionary is the datatype `Records.Record`. A missing key is
  represented by the default the loader (`_jogo_de_dict`) substitutes for it.
  That default is the loader's reading only; the update command indexes some keys
  directly (see "## Left out").
- Python's `sorted` is stable. Each sort is therefore specified three ways: it
  permutes its input (multiset equality), keys never increase, and for every key
  value the items carrying it keep their input order (`Sorting.Stable`).

`Records.RecordRoundTrip` holds for every title, the empty one included.
`Jogo.__init__` does not validate the title (`jogo.py:7`), and the loader reads a
missing title as `""` (`main.py:74`).

## Model

| member | source | states |
|---|---|---|
| Games.NewGame | src/minha_jogatina/models/jogo.py:6-12 | a new game keeps the given title, genre and platform, and starts with 0 hours, not started and unrated, whatever its title |
| Games.SetTitle | src/minha_jogatina/models/jogo.py:18-22 | refuses exactly the empty and whitespace-only titles with the blank-title error; otherwise only the title changes, to the value as given, untrimmed |
| Games.SetHours | src/minha_jogatina/models/jogo.py:28-32 | refuses exactly the negative values; any other value, a decrease included, replaces the hours and nothing else |
| Games.SetStatus | src/minha_jogatina/models/jogo.py:38-43 | finishing with less than one hour is the only refusal; every other assignment changes only the status and keeps the rating |
| Games.SetRating | src/minha_jogatina/models/jogo.py:49-56 | an unfinished game is refused first, then a rating outside [0, 10]; on success only the rating changes |
| Games.Equal | src/minha_jogatina/models/jogo.py:67-72 | equal exactly when the lower-cased titles agree and the platforms agree; this is the case-insensitive platform-name comparison, since the three lower-cased names differ |
| Games.EqualIsEquivalence | src/minha_jogatina/models/jogo.py:67-72 | equality is reflexive, symmetric and transitive |
| Games.EqualIgnoresProgress | src/minha_jogatina/models/jogo.py:67-72 | replacing either game's genre, hours, status and rating never changes whether the two are equal |
| Games.Less | src/minha_jogatina/models/jogo.py:74-78 | `__lt__` compares the hours played and nothing else; its order properties are stated by `Games.LessIsStrictOrder` |
| Games.LessIsStrictOrder | src/minha_jogatina/models/jogo.py:74-78 | `<` is irreflexive, asymmetric and transitive, and two games with equal hours are incomparable |
| Games.Describe | src/minha_jogatina/models/jogo.py:58-60 | the display string is the title, " (", the platform name, ") - " and the status label, in that order |
| Games.DescribeDeterminesPlatformAndStatus | src/minha_jogatina/models/jogo.py:58-60 | two games with the same title and the same display string have the same platform and status |
| Games.SettersPreserveValid | src/minha_jogatina/models/jogo.py:18-56 | each setter keeps hours non-negative and a present rating within [0, 10] |
| Games.SettersKeepRatingAndIdentity | src/minha_jogatina/models/jogo.py:18-56 | no setter clears a rating; only a title change to a different lower-cased title changes equality |
| Platforms.NewPC | src/minha_jogatina/models/plataformas.py:3-5 | a PC game's platform name is "PC"; title, genre and initial state are as given |
| Platforms.NewConsole | src/minha_jogatina/models/plataformas.py:7-9 | a console game's platform name is "Console"; title, genre and initial state are as given |
| Platforms.NewMobile | src/minha_jogatina/models/plataformas.py:11-13 | a mobile game's platform name is "Mobile"; title, genre and initial state are as given |
| Platforms.VariantsNeverEqual | src/minha_jogatina/models/plataformas.py:3-13 | games of two different variants are never equal, even with the same title |
| Platforms.SameVariantSameTitleEqual | src/minha_jogatina/models/plataformas.py:3-13 | games of one variant with the same title are equal whatever their genres |
| Modifications.Reset | src/minha_jogatina/modificacoes.py:3-10 | refuses exactly a game that was never started; otherwise hours become 0, status playing and the rating absent, everything else kept |
| Modifications.ResetIdempotent | src/minha_jogatina/modificacoes.py:3-10 | resetting a reset game gives the same game |
| Modifications.ResetKeepsIdentity | src/minha_jogatina/modificacoes.py:8-10 | reset keeps title, genre and platform, hence equality and the hash key, and keeps the field invariant |
| Modifications.IdentityKey | src/minha_jogatina/modificacoes.py:13-15 | the (lower title, lower platform name) tuple the free function `__hash__` hashes; `Modifications.IdentityKeyMatchesEqual` ties it to equality |
| Modifications.IdentityKeyMatchesEqual | src/minha_jogatina/modificacoes.py:13-15 | two games have the same hashed (lower title, lower platform) tuple exactly when they are equal, so equal games hash alike |
| Collections.NewCollection | src/minha_jogatina/colecoes/colecao.py:6-8 | a new collection has the given name and no games |
| Collections.Includes | src/minha_jogatina/colecoes/colecao.py:12 | `jogo in jogos` holds exactly when some member is equal to the game |
| Collections.Add | src/minha_jogatina/colecoes/colecao.py:10-14 | refuses exactly when an equal game is present; otherwise appends at the end with earlier members and their order unchanged; a collection without equal members stays so |
| Collections.Remove | src/minha_jogatina/colecoes/colecao.py:16-17 | drops exactly the members whose title matches ignoring case, on any platform; every other member keeps its multiplicity and relative order; never fails; a collection without equal members stays so |
| Collections.RemoveIdempotent | src/minha_jogatina/colecoes/colecao.py:16-17 | removing a title twice is removing it once |
| Collections.Summary | src/minha_jogatina/colecoes/colecao.py:22-23 | `__str__` of a collection; what it shows is stated by `Collections.SummaryReportsCount` |
| Collections.SummaryReportsCount | src/minha_jogatina/colecoes/colecao.py:22-23 | the summary starts with the collection name, ends with " jogos.", and the number between them reads back as the member count |
| Reports.TotalHours | src/minha_jogatina/models/relatorio.py:10-12 | the total is 0 for no games and non-negative when all hours are, and no game's hours exceed it |
| Reports.TotalHoursConcat | src/minha_jogatina/models/relatorio.py:10-12 | the total over two lists joined is the sum of their totals |
| Reports.TotalHoursSorted | src/minha_jogatina/models/relatorio.py:53-55 | reordering by any sort key leaves the total unchanged |
| Reports.RatedCount | src/minha_jogatina/models/relatorio.py:16-19 | no game qualifies for the mean exactly when no finished game has a truthy rating |
| Reports.RatedTotalsAreFilterTotals | src/minha_jogatina/models/relatorio.py:16-20 | the running count and sum equal the length and rating sum of the list `finalizados` that `media_avaliacao_finalizados` builds |
| Reports.RatedSumBounds | src/minha_jogatina/models/relatorio.py:16-20 | over valid games the qualifying ratings add up to between 0 and 10 per qualifying game |
| Reports.Mean | src/minha_jogatina/models/relatorio.py:20 | the quotient times the count gives back the sum, and a sum within 10 per item gives a mean in [0, 10] |
| Reports.AverageRatingFinished | src/minha_jogatina/models/relatorio.py:14-20 | 0 when no finished game has a truthy rating; within [0, 10] when all games are valid |
| Reports.AverageTimesCount | src/minha_jogatina/models/relatorio.py:19-20 | when some game qualifies, the mean times the number of qualifying games is the sum of their ratings |
| Reports.AverageIsMeanOfQualifying | src/minha_jogatina/models/relatorio.py:16-20 | the result is `sum / len` of the list of qualifying games, and 0 when that list is empty |
| Reports.UnqualifiedGameIgnored | src/minha_jogatina/models/relatorio.py:16-17 | a game that does not qualify never moves the mean, wherever it stands; a finished game rated exactly 0 is one such game |
| Reports.CountStatus | src/minha_jogatina/models/relatorio.py:29 | a status count never exceeds the number of games |
| Reports.CountStatusIsFilterLength | src/minha_jogatina/models/relatorio.py:29 | the count is the length of the comprehension of games with that status |
| Reports.CountsAddUp | src/minha_jogatina/models/relatorio.py:28-29 | the four status counts add up to the number of games |
| Reports.Share | src/minha_jogatina/models/relatorio.py:30 | the percentage times the total is 100 times the count, and it lies in [0, 100] |
| Reports.ShareAdd | src/minha_jogatina/models/relatorio.py:30 | shares of two counts add up to the share of their sum |
| Reports.SharesAddUp | src/minha_jogatina/models/relatorio.py:28-30 | the shares of four counts that make up the total add up to 100 |
| Reports.Percentage | src/minha_jogatina/models/relatorio.py:30 | a status's value is 100 times its count over the total, within [0, 100] |
| Reports.StatusEntries | src/minha_jogatina/models/relatorio.py:27-30 | the dictionary's items in insertion order: one per status, in `StatusJogo` order, keyed by its label with its value; keys are distinct and every status has its entry |
| Reports.EntriesCoverStatuses | src/minha_jogatina/models/relatorio.py:28-30 | items written for each status in enumeration order include an item for every status |
| Reports.PercentageByStatus | src/minha_jogatina/models/relatorio.py:22-31 | empty exactly for no games; otherwise four items in `StatusJogo` order (the order `percentual-status` prints, main.py:435), each a status label with that status's percentage, keys distinct, every status present, and the four values adding up to 100 |
| Reports.SortByHours | src/minha_jogatina/models/relatorio.py:53-55 | a permutation of the games, hours never increasing, equal-hour games in input order |
| Reports.SortByHoursAgreesWithLess | src/minha_jogatina/models/relatorio.py:53-55 | along the ranking no game is `<`-greater than a later one |
| Reports.Top5ByHours | src/minha_jogatina/models/relatorio.py:33-35 | min(5, n) games, the first ones of the hours ranking; any game left out has no more hours than any game kept |
| Reports.PrefixOfRanking | src/minha_jogatina/models/relatorio.py:35 | a prefix of a ranking takes each game at most as often as the input has it, and leaves out only games with no more hours than those kept |
| Reports.FilterByGenre | src/minha_jogatina/models/relatorio.py:37-39 | keeps exactly the games whose genre matches ignoring case, with their multiplicities, in input order |
| Reports.FilterByPlatform | src/minha_jogatina/models/relatorio.py:41-43 | keeps exactly the games whose platform name matches ignoring case, with their multiplicities, in input order |
| Reports.FilterByPlatformSelectsVariant | src/minha_jogatina/models/relatorio.py:41-43 | asked for a variant's name, the filter keeps exactly the games of that variant |
| Reports.FilterByStatus | src/minha_jogatina/models/relatorio.py:45-47 | keeps exactly the games with that status, with their multiplicities, in input order |
| Reports.SearchByTitle | src/minha_jogatina/models/relatorio.py:49-51 | keeps exactly the games whose lower-cased title contains the lower-cased query at some position, in input order |
| Reports.SearchEmptyQueryKeepsAll | src/minha_jogatina/models/relatorio.py:49-51 | the empty query keeps every game |
| Reports.SortByRating | src/minha_jogatina/models/relatorio.py:57-60 | exactly the games with a truthy rating (unrated and 0-rated dropped), ratings never increasing, equal ratings in input order |
| Sorting.SortDesc | src/minha_jogatina/models/relatorio.py:55 | `sorted(..., reverse=True)`: a permutation, keys never increasing, stable among equal keys |
| Text.Contains | src/minha_jogatina/models/relatorio.py:51 | `needle in hay` holds exactly when the needle occurs at some position of the string |
| Records.FindStatus | main.py:55-57 | a found status carries the string as its name or label; nothing is found only when no listed status does |
| Records.StatusFromString | main.py:48-58 | the status whose name or label is the string; not started when none is; never fails |
| Games.AllStatusesListed | main.py:55 | iterating the status enumeration visits all four statuses |
| Records.StatusFromStringRoundTrip | src/minha_jogatina/main.py:29-33 | each status's name and its label both read back as that status |
| Records.ValidRating | main.py:114-120 | `validar_avaliacao`: the inclusive range [0, 10]; `Records.ValidRatingMatchesSetter` relates it to the rating setter |
| Records.ValidRatingMatchesSetter | src/minha_jogatina/main.py:68-69 | on a finished game the rating setter accepts exactly the ratings the inclusive [0, 10] check accepts |
| Records.PlatformFromString | main.py:73-83 | "pc" anywhere in the lower-cased platform makes a PC game; otherwise "console" anywhere makes a console game; otherwise, also for a missing platform, a mobile game |
| Records.PlatformFromStringRoundTrip | src/minha_jogatina/main.py:41-46 | each platform's own name dispatches back to it |
| Records.MissingPlatformIsMobile | main.py:73-83 | a record without a platform loads as a mobile game |
| Records.NewForPlatform | main.py:78-83 | the selected subclass constructor builds a new game on that platform |
| Records.GameFromRecord | main.py:61-93 | loading fails exactly on negative hours, finished with under one hour, or a rating on an unfinished game or out of range, with the first failing setter's error in each of these cases (negative hours, then the early finish, then a rating before finishing, then a rating out of range), and with no other error; a loaded game carries the stored fields and is valid |
| Records.GameToRecord | main.py:96-111 | the stored platform and status strings read back as the game's own platform and status |
| Records.RecordRoundTrip | main.py:61-111 | storing then loading a game gives it back exactly when it is storable (non-negative hours, at least one hour if finished, a rating only when finished and in range), for every title |
| Records.LoadedGamesAreStorable | src/minha_jogatina/main.py:36-65 | whatever loads is storable, so loading, storing and loading again is stable |
| Records.CanonicalRecordRoundTrip | main.py:61-111 | a loadable record written by platform name and status label is reproduced by loading and storing it |
| Records.LoadGames | main.py:134-139 | loading a collection succeeds exactly when every record loads, and yields the loaded games in order; a failure carries the error of the first record that does not load |
| Records.LoadStoredGames | main.py:134-139 | storing storable games and loading the list back gives the same games |
| Commands.FirstMatch | main.py:332-333 | finds the first record whose title matches ignoring case, and finds nothing exactly when no record matches |
| Commands.RemoveCommand | main.py:319-322 | drops exactly the records whose title matches ignoring case; every other record keeps its multiplicity and relative order; nothing changes when nothing matches |
| Commands.RemoveCommandAgreesWithCollection | src/minha_jogatina/main.py:152 | removing from the stored list drops the same games as the collection's own removal |
| Commands.RemoveCommandIdempotent | main.py:322 | removing a title twice is removing it once |
| Commands.RateRecord | main.py:347-354 | a new rating needs the edited status string to be the finished label (checked first), then a value in [0, 10]; on success only the rating changes |
| Commands.UpdateRecord | main.py:332-370 | refused exactly when the hours drop, when a new rating meets a status other than the finished label or lies outside [0, 10], or when the edited copy does not load; each refusal carries its own error: the hours drop, then the unfinished rating, then the out-of-range rating, then the loader's error; otherwise the result is the edited copy loaded and stored again, with the given or old hours (never fewer), title, genre and platform, a given rating only when finished and in range, and it reloads to itself |
| Commands.StoredEditKeepsOptions | main.py:356-370 | when the edited copy loads, the stored record has every given option (hours, title, genre, platform, a rating only with the finished label) and reloads to itself |
| Commands.UpdateCommand | main.py:328-376 | "not found" exactly when no title matches; otherwise the command succeeds exactly when the edit of the first match does, refuses with that edit's error, and on success replaces that record by the edited one and keeps every other record; its hours never drop and it stays loadable; lowering the hours is refused |
| Commands.UpdateNeverLowersHours | src/minha_jogatina/main.py:165-167 | no accepted update lowers any stored game's hours |
| Commands.UpdateRatingNeedsFinishedLabel | main.py:343-350 | a record stored with the member name "FINALIZADO" loads as finished, yet rating it without a new status is refused |
| Commands.ResetCommand | main.py:379-407 | "not found" exactly when no title matches; with a match, succeeds exactly when the matched record loads and does not read as not started; a record that does not load is refused with the loader's error, and a not-started one with the reset error; otherwise only that record changes, to 0 hours, the playing label and no rating, with title, genre and platform kept |
| Commands.ResetCommandAgreesWithReset | main.py:385-404 | on stored storable games the command refuses exactly when `reiniciar_jogo` does and otherwise stores the game it returns |
| Commands.CheckAddRating | src/minha_jogatina/main.py:136-142 | a given rating outside [0, 10] is refused first; one whose status does not read as finished is refused next; nothing else is refused here |
| Commands.AddCommand | main.py:299-316 | as written: refused exactly when a rating is given or the status reads as finished; a bad or premature rating carries the rating check's error, and a finished add with no rating or a valid one fails in the status setter (finishing too early), since the loaded hours are 0; otherwise one record is appended and the earlier ones are kept, with an empty title, the "Mobile" platform, 0 hours, no rating, the given genre and the status label |
| Commands.AddCommandDropsFields | main.py:311 | adding "Halo" on PC with 5 hours stores an empty title on Mobile with 0 hours |
| Commands.AddCommandRefusesFinishedAndRated | main.py:300-311 | as written, every add with a rating or a finished status is refused |
| Commands.AddCommandIntended | main.py:299-316 | corrected: refused exactly for a bad or premature rating, negative hours, or finished with under one hour; otherwise the appended record carries the given title, genre, platform, hours, rating and status label |
| Commands.AddCommandIntendedKeepsFields | main.py:311 | the record the corrected command appends loads as exactly the game the options describe |

## Left out

- Command-line plumbing is not modelled: argument parsing, `print`, subcommand dispatch and the help text.
  - Collection-level commands are left out: `listar-colecoes`, `criar-colecao`, `deletar-colecao`, `listar-jogos`.
  - So are the display and comparison commands. They only call `__str__`, `__repr__`, `__eq__` and `__lt__`; of those, `__str__`, `__eq__` and `__lt__` are modelled.
  - The report commands, which only call the report functions, are left out as well.
- File I/O is left out: reading and writing the JSON storage (`carregar_armazenamento`, `salvar_armazenamento`) and all of `RepositorioDados` in `src/minha_jogatina/dados.py`. That loader writes a raw status string past the setter and drops falsy ratings. Neither is modelled.
- Collection lookup in the storage dictionary is not modelled: the commands work on one collection's list. Not modelled:
  - the `KeyError` for a missing collection in the add, update and remove commands;
  - the "collection not found" branch of the reset command;
  - the all-collections walk of `_construir_jogos_de_armazenamento`, whose order is dictionary order.
- Stored records with a missing `title` key (a `KeyError` in the commands), non-numeric hours (`float()` raising) and non-string values are not modelled. A `Record` always holds a string title and real hours.
- A falsy stored title, genre or platform is modelled by `""`, exactly as the loader reads it. In the loader, a missing status reads as `""` and a `null` status as `None`; both fall back to not started.
- Commands.UpdateRecord: does not model two `KeyError`s of `atualizar-jogo`, because a `Record` has no absent keys. A stored record without "horas_jogadas" given `--horas` raises at `g["horas_jogadas"]` (main.py:338). One without "status" given `--avaliacao` and no `--status` raises at `novo["status"]` (main.py:348). The model reads such records with the loader's defaults instead: it compares against 0 hours, and it refuses the rating as given before finishing.
- `Jogo.__repr__` is not modelled, because it formats floats. The report commands' `:.2f` and `:.1f` formatting is left out too.
- Floating point is modelled as exact `real` arithmetic: no rounding, NaN or infinities.
- `lower()` is modelled on ASCII letters only. `strip()` blankness uses Python's `isspace` character set, without Unicode normalisation.
- The base class `Jogo` built with an arbitrary platform string is not modelled. Every game in the program is one of the three subclasses, so the platform is an enumeration.
- The status module `models/status.py` is not part of this model.
  - Member names are the four enumeration names.
  - The declaration order NAO_INICIADO, JOGANDO, FINALIZADO, ABANDONADO is assumed. It is the order of `Games.AllStatuses`, and so the item order of `Reports.PercentageByStatus`.
  - Of the labels, only "Não Iniciado" appears in the code. "Jogando", "Finalizado" and "Abandonado" stand in for the other three.
  - The proofs rely only on the eight strings being non-empty and pairwise distinct (`Games.StatusStringsDistinct`).
- `__hash__` is modelled by the tuple it hashes (`Modifications.IdentityKey`), not by Python's integer hash.
- Shared mutable games are not modelled. Python collections hold references to mutable `Jogo` objects, so changing a member's title after adding it can leave two equal members. So can appending through the list `listar_jogos` returns. Games here are immutable values, so `Collections.Add` and `Collections.Remove` keeping a collection free of equal members is the only guarantee stated.
- `Colecao.listar_jogos` returns the list itself, which is the `games` field of `Collections.Collection`.
- `testes.py` (a separate, older command line) is not modelled.
- Reports.PercentageByStatus: states each value as `Percentage(games, st)` rather than repeating the arithmetic. `Reports.Percentage` and `Reports.Share` carry the `100 * count / total` relation and the [0, 100] range.

## Findings

| source | as written | input that shows it | evidently intended | confidence | as-written member | corrected member |
|---|---|---|---|---|---|---|
| main.py:311 (same in src/minha_jogatina/main.py:144) | `adicionar-jogo` builds the game from `vars(args)`, whose keys are `titulo`, `plataforma` and `horas`. `_jogo_de_dict` looks up `title`, `platform` and `horas_jogadas`, so every added game is stored with title `""`, platform Mobile and 0 hours. For the same reason, any add with a rating or with the finished status is refused, since finishing needs one hour. | `adicionar-jogo c --titulo Halo --genero FPS --plataforma PC --status JOGANDO --horas 5` stores `{"title": "", "platform": "Mobile", "horas_jogadas": 0.0, ...}` | store the given title, platform and hours | high (not executed) | Commands.AddCommandDropsFields | Commands.AddCommandIntended |

=== FILE: collections.dfy ===
/** `Colecao`: a named, ordered list of games. `adicionar_jogo` and
    `remover_jogo` keep a collection free of members equal under the game's
    `__eq__`. */
module Collections {
  import opened Wrappers
  import opened Text
  import opened Seqs
  import opened Games

  datatype Collection = Collection(name: string, games: seq<Game>)

  /** No two members are equal games. */
  ghost predicate NoDuplicates(games: seq<Game>) {
    forall i, j :: 0 <= i < j < |games| ==> !Equal(games[i], games[j])
  }

  /** `Colecao.__init__`: a named, empty collection. */
  function NewCollection(name: string): (c: Collection)
    ensures c.name == name && c.games == []
    ensures NoDuplicates(c.games)
  {
    Collection(name, [])
  }

  /** Python's `g in games`: a left-to-right scan with `__eq__`. */
  function Includes(games: seq<Game>, g: Game): (r: bool)
    ensures r <==> exists i :: 0 <= i < |games| && Equal(games[i], g)
  {
    if |games| == 0 then false
    else if Equal(games[0], g) then true
    else
      assert forall i :: 1 <= i < |games| ==> games[i] == games[1..][i - 1];
      Includes(games[1..], g)
  }

  /** `adicionar_jogo`: refuses a game equal to a member, otherwise appends it. */
  function Add(c: Collection, g: Game): (r: Result<Collection, Error>)
    ensures r.Failure? <==> exists i :: 0 <= i < |c.games| && Equal(c.games[i], g)
    ensures r.Failure? ==> r.error == DuplicateGame
    ensures r.Success? ==> r.value.name == c.name && r.value.games == c.games + [g]
    ensures r.Success? && NoDuplicates(c.games) ==> NoDuplicates(r.value.games)
  {
    if Includes(c.games, g) then Failure(DuplicateGame)
    else
      var games := c.games + [g];
      assert forall i :: 0 <= i < |c.games| ==> games[i] == c.games[i];
      Success(Collection(c.name, games))
  }

  /** Keeps the games whose title differs from `title`, ignoring case. */
  function TitleDiffers(title: string): Game -> bool {
    (g: Game) => Lower(g.title) != Lower(title)
  }

  lemma NoDuplicatesCons(x: Game, t: seq<Game>)
    ensures NoDuplicates([x] + t) <==> NoDuplicates(t) && forall y :: y in t ==> !Equal(x, y)
  {
    var s := [x] + t;
    assert forall i :: 0 <= i < |t| ==> s[i + 1] == t[i];
    if NoDuplicates(t) && forall y :: y in t ==> !Equal(x, y) {
      forall i, j | 0 <= i < j < |s|
        ensures !Equal(s[i], s[j])
      {
        if i == 0 {
          assert s[j] == t[j - 1];
        } else {
          assert s[i] == t[i - 1] && s[j] == t[j - 1];
        }
      }
    }
    if NoDuplicates(s) {
      forall y | y in t
        ensures !Equal(x, y)
      {
        var k :| 0 <= k < |t| && t[k] == y;
        assert s[0] == x && s[k + 1] == y;
        assert !Equal(s[0], s[k + 1]);
      }
    }
  }

  /** Dropping members never creates a duplicate. */
  lemma {:induction false} FilterKeepsNoDuplicates(s: seq<Game>, p: Game -> bool)
    requires NoDuplicates(s)
    ensures NoDuplicates(Filter(s, p))
    decreases |s|
  {
    if |s| > 0 {
      assert s == [s[0]] + s[1..];
      NoDuplicatesCons(s[0], s[1..]);
      FilterKeepsNoDuplicates(s[1..], p);
      FilterCons(s[0], s[1..], p);
      if p(s[0]) {
        NoDuplicatesCons(s[0], Filter(s[1..], p));
      }
    }
  }

  /** `remover_jogo`: drops every member whose title matches case-insensitively, on
      any platform, and keeps the rest in order; it never fails. */
  function Remove(c: Collection, title: string): (r: Collection)
    ensures r.name == c.name
    ensures forall i :: 0 <= i < |r.games| ==> Lower(r.games[i].title) != Lower(title)
    ensures forall g :: multiset(r.games)[g]
                        == if Lower(g.title) != Lower(title) then multiset(c.games)[g] else 0
    ensures IsSubsequence(r.games, c.games)
    ensures NoDuplicates(c.games) ==> NoDuplicates(r.games)
  {
    var p := TitleDiffers(title);
    FilterMultiplicity(c.games, p);
    assert NoDuplicates(c.games) ==> NoDuplicates(Filter(c.games, p)) by {
      if NoDuplicates(c.games) {
        FilterKeepsNoDuplicates(c.games, p);
      }
    }
    Collection(c.name, Filter(c.games, p))
  }

  /** Removing the same title twice is removing it once. */
  lemma RemoveIdempotent(c: Collection, title: string)
    ensures Remove(Remove(c, title), title) == Remove(c, title)
  {
    FilterIdempotent(c.games, TitleDiffers(title));
  }

  /** `__str__`: "Coleção '{name}' com {count} jogos.". */
  function Summary(c: Collection): string {
    "Coleção '" + c.name + "' com " + NatToString(|c.games|) + " jogos."
  }

  /** The summary opens with the collection's name and its number field reads back
      as the current member count. */
  lemma SummaryReportsCount(c: Collection)
    ensures var s := Summary(c);
      var k := |"Coleção '" + c.name + "' com "|;
      && |s| >= k + |" jogos."|
      && s[..k] == "Coleção '" + c.name + "' com "
      && s[|s| - |" jogos."|..] == " jogos."
      && IsDigits(s[k..|s| - |" jogos."|])
      && ParseNat(s[k..|s| - |" jogos."|]) == |c.games|
  {
    var s := Summary(c);
    var head := "Coleção '" + c.name + "' com ";
    var digits := NatToString(|c.games|);
    assert s == head + digits + " jogos.";
    assert s[|head|..|s| - |" jogos."|] == digits;
    ParseNatToString(|c.games|);
  }
}

=== FILE: commands.dfy ===
/** The list rules behind the command line's `adicionar-jogo`, `atualizar-jogo`,
    `remover-jogo` and `reiniciar-jogo`, applied to one collection's list of stored
    game records. A refusal (a printed message, or an exception from a setter)
    leaves the list as it was and is returned as a `Failure`. */
module Commands {
  import opened Wrappers
  import opened Text
  import opened Seqs
  import opened Games
  import opened Modifications
  import opened Collections
  import opened Records

  /** `g["title"].lower() == titulo.lower()`. */
  predicate TitleMatches(d: Record, title: string) {
    Lower(d.title) == Lower(title)
  }

  /** `for i, g in enumerate(col["games"])`: the index of the first record whose title
      matches, if any. */
  function FirstMatch(records: seq<Record>, title: string): (r: Option<nat>)
    ensures r.None? <==> forall j :: 0 <= j < |records| ==> !TitleMatches(records[j], title)
    ensures r.Some? ==> && r.value < |records| && TitleMatches(records[r.value], title)
                        && forall j :: 0 <= j < r.value ==> !TitleMatches(records[j], title)
    decreases |records|
  {
    if |records| == 0 then None
    else if TitleMatches(records[0], title) then Some(0)
    else
      assert forall j :: 1 <= j < |records| ==> records[j] == records[1..][j - 1];
      match FirstMatch(records[1..], title)
      case None => None
      case Some(i) => Some(i + 1)
  }

  // ---------------------------------------------------------------- remover-jogo

  /** Keeps the records whose title differs from `title`, ignoring case. */
  function RecordTitleDiffers(title: string): Record -> bool {
    (d: Record) => Lower(d.title) != Lower(title)
  }

  /** `remover-jogo`: drops every record whose title matches case-insensitively,
      whatever its platform, and keeps the others in order. */
  function RemoveCommand(records: seq<Record>, title: string): (r: seq<Record>)
    ensures forall i :: 0 <= i < |r| ==> !TitleMatches(r[i], title)
    ensures forall d :: d in r <==> d in records && !TitleMatches(d, title)
    ensures IsSubsequence(r, records)
    ensures forall d :: multiset(r)[d] == if TitleMatches(d, title) then 0 else multiset(records)[d]
    ensures FirstMatch(records, title).None? ==> r == records
  {
    var p := RecordTitleDiffers(title);
    FilterMultiplicity(records, p);
    assert FirstMatch(records, title).None? ==> Filter(records, p) == records by {
      if FirstMatch(records, title).None? {
        FilterKeepsAll(records, p);
      }
    }
    Filter(records, p)
  }

  /** Removing from the stored list is removing from the collection and storing the
      result: the command and `Colecao.remover_jogo` drop the same games. */
  lemma RemoveCommandAgreesWithCollection(c: Collection, title: string)
    ensures RemoveCommand(Map(c.games, GameToRecord), title)
         == Map(Remove(c, title).games, GameToRecord)
  {
    var p, q := TitleDiffers(title), RecordTitleDiffers(title);
    forall g: Game
      ensures p(g) == q(GameToRecord(g))
    {
    }
    FilterMap(c.games, GameToRecord, p, q);
  }

  /** Removing the same title twice is removing it once. */
  lemma RemoveCommandIdempotent(records: seq<Record>, title: string)
    ensures RemoveCommand(RemoveCommand(records, title), title) == RemoveCommand(records, title)
  {
    FilterIdempotent(records, RecordTitleDiffers(title));
  }

  // -------------------------------------------------------------- atualizar-jogo

  /** The options of `atualizar-jogo`. A string option that is absent or empty is
      "" (the command tests it for truthiness); hours and rating are compared
      against `None`, so 0 counts as given. */
  datatype UpdateArgs = UpdateArgs(
    newTitle: string,           // --novo-titulo
    genre: string,              // --genero
    platform: Option<Platform>, // --plataforma, one of "PC", "Console", "Mobile"
    status: string,             // --status
    hours: Option<real>,        // --horas
    rating: Option<real>)       // --avaliacao

  /** The status string the edited copy carries: the label of the new status when
      one is given, else whatever the stored record holds. */
  function EditedStatus(d: Record, a: UpdateArgs): string {
    if a.status != "" then StatusLabel(StatusFromString(a.status)) else d.status
  }

  /** The rating step of `atualizar-jogo`: a new rating needs the edited status string
      to be the finished label (checked first) and a value in [0, 10]. */
  function RateRecord(d: Record, rating: Option<real>): (r: Result<Record, Error>)
    ensures rating.None? ==> r == Success(d)
    ensures rating.Some? && d.status != StatusLabel(Finished) ==> r == Failure(RatingBeforeFinish)
    ensures rating.Some? && d.status == StatusLabel(Finished) && !ValidRating(rating.value)
            ==> r == Failure(RatingOutOfRange)
    ensures r.Success? ==> r.value == d.(rating := if rating.Some? then rating else d.rating)
  {
    if rating.None? then Success(d)
    else if d.status != StatusLabel(Finished) then Failure(RatingBeforeFinish)
    else if !ValidRating(rating.value) then Failure(RatingOutOfRange)
    else Success(d.(rating := rating))
  }

  /** The copy `atualizar-jogo` edits: status, rating, hours, genre, platform and
      title each replaced when the option is given. */
  function Edited(d: Record, a: UpdateArgs): Record {
    d.(status := EditedStatus(d, a),
       rating := if a.rating.Some? then a.rating else d.rating,
       hours := if a.hours.Some? then a.hours.value else d.hours,
       genre := if a.genre != "" then a.genre else d.genre,
       platform := if a.platform.Some? then PlatformName(a.platform.value) else d.platform,
       title := if a.newTitle != "" then a.newTitle else d.title)
  }

  /** `atualizar-jogo` on the matched record: refuses fewer hours than stored, edits a
      copy (status, rating, hours, genre, platform, title, in that order), then
      reloads the copy through `_jogo_de_dict` and stores it with `_jogo_para_dict`. */
  function UpdateRecord(d: Record, a: UpdateArgs): (r: Result<Record, Error>)
    ensures r.Failure? <==>
      || (a.hours.Some? && a.hours.value < d.hours)
      || (a.rating.Some? && (EditedStatus(d, a) != StatusLabel(Finished) || !ValidRating(a.rating.value)))
      || GameFromRecord(Edited(d, a)).Failure?
    ensures r.Success? ==> r.value == GameToRecord(GameFromRecord(Edited(d, a)).value)
    ensures a.hours.Some? && a.hours.value < d.hours ==> r == Failure(HoursDecrease)
    ensures (&& !(a.hours.Some? && a.hours.value < d.hours) && a.rating.Some?
             && EditedStatus(d, a) == StatusLabel(Finished) && !ValidRating(a.rating.value))
            ==> r == Failure(RatingOutOfRange)
    ensures (&& !(a.hours.Some? && a.hours.value < d.hours)
             && !(a.rating.Some? && (EditedStatus(d, a) != StatusLabel(Finished) || !ValidRating(a.rating.value)))
             && GameFromRecord(Edited(d, a)).Failure?)
            ==> r == Failure(GameFromRecord(Edited(d, a)).error)
    ensures (&& !(a.hours.Some? && a.hours.value < d.hours) && a.rating.Some?
             && EditedStatus(d, a) != StatusLabel(Finished)) ==> r == Failure(RatingBeforeFinish)
    ensures r.Success? ==> r.value.hours >= d.hours
    ensures r.Success? ==> r.value.hours == (if a.hours.Some? then a.hours.value else d.hours)
    ensures r.Success? ==> r.value.title == (if a.newTitle != "" then a.newTitle else d.title)
    ensures r.Success? ==> r.value.genre == (if a.genre != "" then a.genre else d.genre)
    ensures r.Success? && a.platform.Some? ==> r.value.platform == PlatformName(a.platform.value)
    ensures r.Success? && a.rating.Some? ==>
      && r.value.rating == a.rating && ValidRating(a.rating.value)
      && r.value.status == StatusLabel(Finished)
    ensures r.Success? && a.rating.None? ==> r.value.rating == d.rating
    ensures r.Success? ==> GameFromRecord(r.value).Success?
                           && GameToRecord(GameFromRecord(r.value).value) == r.value
    ensures r.Failure? ==>
      r.error in {HoursDecrease, NegativeHours, FinishTooEarly, RatingBeforeFinish, RatingOutOfRange}
  {
    if a.hours.Some? && a.hours.value < d.hours then Failure(HoursDecrease)
    else
      var rated :- RateRecord(d.(status := EditedStatus(d, a)), a.rating);
      var edited := rated.(
        hours := if a.hours.Some? then a.hours.value else rated.hours,
        genre := if a.genre != "" then a.genre else rated.genre,
        platform := if a.platform.Some? then PlatformName(a.platform.value) else rated.platform,
        title := if a.newTitle != "" then a.newTitle else rated.title);
      assert edited == Edited(d, a);
      var game :- GameFromRecord(edited);
      StoredEditKeepsOptions(d, a);
      Success(GameToRecord(game))
  }

  /** When the edited copy loads, the record stored for it carries every given option
      and loads back to a game that stores as the same record. */
  lemma StoredEditKeepsOptions(d: Record, a: UpdateArgs)
    requires GameFromRecord(Edited(d, a)).Success?
    ensures var s := GameToRecord(GameFromRecord(Edited(d, a)).value);
      && s.hours == (if a.hours.Some? then a.hours.value else d.hours)
      && s.title == (if a.newTitle != "" then a.newTitle else d.title)
      && s.genre == (if a.genre != "" then a.genre else d.genre)
      && (a.platform.Some? ==> s.platform == PlatformName(a.platform.value))
      && (a.rating.Some? ==> s.rating == a.rating && ValidRating(a.rating.value)
                             && s.status == StatusLabel(Finished))
      && (a.rating.None? ==> s.rating == d.rating)
      && GameFromRecord(s).Success? && GameToRecord(GameFromRecord(s).value) == s
  {
    var e := Edited(d, a);
    var game := GameFromRecord(e).value;
    LoadedGamesAreStorable(e);
    if a.platform.Some? {
      PlatformFromStringRoundTrip(a.platform.value);
    }
  }

  /** `atualizar-jogo`: only the first record whose title matches is replaced; no
      match refuses with "not found" and a refused edit leaves the list unchanged. */
  function UpdateCommand(records: seq<Record>, title: string, a: UpdateArgs): (r: Result<seq<Record>, Error>)
    ensures r == Failure(GameNotFound) <==> forall j :: 0 <= j < |records| ==> !TitleMatches(records[j], title)
    ensures r.Success? ==> |r.value| == |records|
    ensures forall i :: r.Success? && FirstMatch(records, title) == Some(i) ==>
      && (forall j :: 0 <= j < |records| && j != i ==> r.value[j] == records[j])
      && r.value[i].hours >= records[i].hours
      && GameFromRecord(r.value[i]).Success?
    ensures forall i :: FirstMatch(records, title) == Some(i) ==>
      && (r.Success? <==> UpdateRecord(records[i], a).Success?)
      && (r.Success? ==> r.value[i] == UpdateRecord(records[i], a).value)
      && (r.Failure? ==> r == Failure(UpdateRecord(records[i], a).error))
    ensures forall i :: (&& FirstMatch(records, title) == Some(i) && a.hours.Some?
                         && a.hours.value < records[i].hours) ==> r == Failure(HoursDecrease)
  {
    match FirstMatch(records, title)
    case None => Failure(GameNotFound)
    case Some(i) =>
      var d :- UpdateRecord(records[i], a);
      Success(records[i := d])
  }

  /** No accepted update lowers the hours of any stored game. */
  lemma UpdateNeverLowersHours(records: seq<Record>, title: string, a: UpdateArgs)
    ensures var r := UpdateCommand(records, title, a);
      r.Success? ==> forall j :: 0 <= j < |records| ==> r.value[j].hours >= records[j].hours
  {
  }

  /** The stored status must be the finished label itself: a hand-written record
      holding the member name "FINALIZADO" loads as a finished game, yet a rating
      given without `--status` is refused. */
  lemma UpdateRatingNeedsFinishedLabel(d: Record, v: real)
    requires d.status == StatusName(Finished) && d.hours >= 1.0 && d.rating.None?
    ensures GameFromRecord(d).Success? && GameFromRecord(d).value.status == Finished
    ensures UpdateRecord(d, UpdateArgs("", "", None, "", None, Some(v))) == Failure(RatingBeforeFinish)
  {
    StatusFromStringRoundTrip(Finished);
    StatusStringsDistinct();
  }

  // -------------------------------------------------------------- reiniciar-jogo

  /** `reiniciar-jogo`: loads the first matching record, refuses a game that was
      never started, and otherwise stores it with no hours, playing and no rating,
      written past the setters. */
  function ResetCommand(records: seq<Record>, title: string): (r: Result<seq<Record>, Error>)
    ensures r == Failure(GameNotFound) <==> forall j :: 0 <= j < |records| ==> !TitleMatches(records[j], title)
    ensures forall i :: FirstMatch(records, title) == Some(i) && GameFromRecord(records[i]).Success?
                        ==> (r == Failure(ResetNotStarted) <==> StatusFromString(records[i].status) == NotStarted)
    ensures forall i :: FirstMatch(records, title) == Some(i) ==>
      (r.Success? <==> GameFromRecord(records[i]).Success? && StatusFromString(records[i].status) != NotStarted)
    ensures forall i :: FirstMatch(records, title) == Some(i) && GameFromRecord(records[i]).Failure?
                        ==> r == Failure(GameFromRecord(records[i]).error)
    ensures r.Success? ==> |r.value| == |records|
    ensures forall i :: r.Success? && FirstMatch(records, title) == Some(i) ==>
      && (forall j :: 0 <= j < |records| && j != i ==> r.value[j] == records[j])
      && r.value[i].hours == 0.0 && r.value[i].status == StatusLabel(Playing)
      && r.value[i].rating == None
      && r.value[i].title == records[i].title && r.value[i].genre == records[i].genre
      && PlatformFromString(r.value[i].platform) == PlatformFromString(records[i].platform)
  {
    match FirstMatch(records, title)
    case None => Failure(GameNotFound)
    case Some(i) =>
      var g :- GameFromRecord(records[i]);
      if g.status == NotStarted then Failure(ResetNotStarted)
      else
        StatusFromStringRoundTrip(Playing);
        Success(records[i := GameToRecord(g.(hours := 0.0, status := Playing, rating := None))])
  }

  /** On a list of stored storable games the command does what `reiniciar_jogo` does
      to the matched game: it refuses exactly when `reiniciar_jogo` does, and
      otherwise stores the game `reiniciar_jogo` returns. */
  lemma ResetCommandAgreesWithReset(games: seq<Game>, title: string, i: nat)
    requires forall k :: 0 <= k < |games| ==> Storable(games[k])
    ensures FirstMatch(Map(games, GameToRecord), title) == Some(i) ==>
      && i < |games|
      && (ResetCommand(Map(games, GameToRecord), title).Success? <==> Reset(games[i]).Success?)
      && (Reset(games[i]).Success? ==>
            ResetCommand(Map(games, GameToRecord), title)
              == Success(Map(games[i := Reset(games[i]).value], GameToRecord)))
  {
    var rs := Map(games, GameToRecord);
    if FirstMatch(rs, title) == Some(i) {
      assert i < |games|;
      RecordRoundTrip(games[i]);
      assert GameFromRecord(rs[i]) == Success(games[i]);
      if Reset(games[i]).Success? {
        var h := Reset(games[i]).value;
        assert ResetCommand(rs, title) == Success(rs[i := GameToRecord(h)]);
        MapUpdate(games, i, h, GameToRecord);
      }
    }
  }

  // -------------------------------------------------------------- adicionar-jogo

  /** The options of `adicionar-jogo`; `--horas` defaults to 0 and `--avaliacao` may
      be absent. */
  datatype AddArgs = AddArgs(
    title: string,      // --titulo
    genre: string,      // --genero
    platform: Platform, // --plataforma, one of "PC", "Console", "Mobile"
    status: string,     // --status
    hours: real,        // --horas
    rating: Option<real>) // --avaliacao

  /** `vars(args)` as `_jogo_de_dict` reads it. The argument dictionary has the keys
      `titulo`, `plataforma` and `horas`, but the loader looks up `title`, `platform`
      and `horas_jogadas`; only `genero`, `status` and `avaliacao` are found. */
  function ArgsAsRead(a: AddArgs): (d: Record)
    ensures d.genre == a.genre && d.status == a.status && d.rating == a.rating
    ensures d.title == "" && d.platform == "" && d.hours == 0.0
  {
    Record("", a.genre, "", a.status, 0.0, a.rating)
  }

  /** The record the options describe, under the keys the loader reads. */
  function ArgsAsIntended(a: AddArgs): (d: Record)
    ensures d.title == a.title && d.genre == a.genre && d.status == a.status
    ensures PlatformFromString(d.platform) == a.platform
    ensures d.hours == a.hours && d.rating == a.rating
  {
    PlatformFromStringRoundTrip(a.platform);
    Record(a.title, a.genre, PlatformName(a.platform), a.status, a.hours, a.rating)
  }

  /** The checks `adicionar-jogo` makes before touching the list: a given rating must
      lie in [0, 10] (checked first) and the status must read as finished. */
  function CheckAddRating(a: AddArgs): (r: Result<(), Error>)
    ensures r.Failure? <==> a.rating.Some? && (!ValidRating(a.rating.value) || StatusFromString(a.status) != Finished)
    ensures a.rating.Some? && !ValidRating(a.rating.value) ==> r == Failure(RatingOutOfRange)
    ensures a.rating.Some? && ValidRating(a.rating.value) && StatusFromString(a.status) != Finished
            ==> r == Failure(RatingBeforeFinish)
  {
    if a.rating.Some? && !ValidRating(a.rating.value) then Failure(RatingOutOfRange)
    else if a.rating.Some? && StatusFromString(a.status) != Finished then Failure(RatingBeforeFinish)
    else Success(())
  }

  /** `adicionar-jogo` as written: after the rating checks, the game built from
      `vars(args)` is stored at the end of the list. No duplicate check is made.
      The built game has no hours, so a finished status is refused by the status
      setter even when no rating is given. */
  function AddCommand(records: seq<Record>, a: AddArgs): (r: Result<seq<Record>, Error>)
    ensures r.Failure? <==> a.rating.Some? || StatusFromString(a.status) == Finished
    ensures CheckAddRating(a).Failure? ==> r == Failure(CheckAddRating(a).error)
    ensures a.rating.Some? && !ValidRating(a.rating.value) ==> r == Failure(RatingOutOfRange)
    ensures StatusFromString(a.status) == Finished && (a.rating.None? || ValidRating(a.rating.value))
            ==> r == Failure(FinishTooEarly)
    ensures r.Success? ==> |r.value| == |records| + 1 && r.value[..|records|] == records
    ensures r.Success? ==> var d := r.value[|records|];
      d.title == "" && d.platform == "Mobile" && d.hours == 0.0 && d.rating == None
      && d.genre == a.genre && d.status == StatusLabel(StatusFromString(a.status))
  {
    var _ :- CheckAddRating(a);
    var g :- GameFromRecord(ArgsAsRead(a));
    Success(records + [GameToRecord(g)])
  }

  /** The discrepancy, on one input: adding "Halo" on PC with 5 hours played stores a
      game with an empty title, on Mobile, with no hours. */
  lemma AddCommandDropsFields()
    ensures AddCommand([], AddArgs("Halo", "FPS", PC, "JOGANDO", 5.0, None))
         == Success([Record("", "FPS", "Mobile", StatusLabel(Playing), 0.0, None)])
  {
    StatusFromStringRoundTrip(Playing);
    PlatformFromStringRoundTrip(Mobile);
  }

  /** As written, no finished game can be added, so no rating can ever be added:
      the loaded hours are always 0, below the one hour finishing needs. */
  lemma AddCommandRefusesFinishedAndRated(records: seq<Record>, a: AddArgs)
    requires StatusFromString(a.status) == Finished || a.rating.Some?
    ensures AddCommand(records, a).Failure?
  {
  }

  /** `adicionar-jogo` as evidently intended: the same checks, with the game built
      from the options under the keys the loader reads. */
  function AddCommandIntended(records: seq<Record>, a: AddArgs): (r: Result<seq<Record>, Error>)
    ensures r.Failure? <==>
      || (a.rating.Some? && (!ValidRating(a.rating.value) || StatusFromString(a.status) != Finished))
      || a.hours < 0.0
      || (StatusFromString(a.status) == Finished && a.hours < 1.0)
    ensures a.rating.Some? && !ValidRating(a.rating.value) ==> r == Failure(RatingOutOfRange)
    ensures r.Success? ==> |r.value| == |records| + 1 && r.value[..|records|] == records
    ensures r.Success? ==> var d := r.value[|records|];
      && d.title == a.title && d.genre == a.genre && d.platform == PlatformName(a.platform)
      && d.hours == a.hours && d.rating == a.rating
      && d.status == StatusLabel(StatusFromString(a.status))
  {
    var _ :- CheckAddRating(a);
    var g :- GameFromRecord(ArgsAsIntended(a));
    Success(records + [GameToRecord(g)])
  }

  /** The intended command stores exactly the game the options describe: loading the
      new record gives a game with the given title, genre, platform, hours, status
      and rating. */
  lemma AddCommandIntendedKeepsFields(records: seq<Record>, a: AddArgs)
    ensures AddCommandIntended(records, a).Success? ==>
      GameFromRecord(AddCommandIntended(records, a).value[|records|])
        == Success(Game(a.title, a.genre, a.platform, a.hours, StatusFromString(a.status), a.rating))
  {
    if AddCommandIntended(records, a).Success? {
      var g := GameFromRecord(ArgsAsIntended(a)).value;
      RecordRoundTrip(g);
    }
  }
}

=== FILE: games.dfy ===
/** The game entity (`Jogo`): a record whose fields change only through
    validating setters, compared by (title, platform) and ordered by hours. */
module Games {
  import opened Wrappers
  import opened Text

  /** `StatusJogo`: the four lifecycle stages. */
  datatype Status = NotStarted | Playing | Finished | Abandoned

  /** The order of `for st in StatusJogo`, taken to be the declaration order
      NAO_INICIADO, JOGANDO, FINALIZADO, ABANDONADO. */
  const AllStatuses: seq<Status> := [NotStarted, Playing, Finished, Abandoned]

  /** `for st in StatusJogo` visits every status. */
  lemma AllStatusesListed()
    ensures forall st: Status :: st in AllStatuses
  {
    forall st: Status
      ensures st in AllStatuses
    {
      match st
      case NotStarted => assert AllStatuses[0] == st;
      case Playing => assert AllStatuses[1] == st;
      case Finished => assert AllStatuses[2] == st;
      case Abandoned => assert AllStatuses[3] == st;
    }
  }

  /** The member names of `StatusJogo` (`st.name`). */
  function StatusName(s: Status): string {
    match s
    case NotStarted => "NAO_INICIADO"
    case Playing => "JOGANDO"
    case Finished => "FINALIZADO"
    case Abandoned => "ABANDONADO"
  }

  /** The display labels of `StatusJogo` (`st.value`). Only "Não Iniciado" is
      attested; the other three stand for labels that are merely required to be
      distinct, non-empty and different from every member name. */
  function StatusLabel(s: Status): string {
    match s
    case NotStarted => "Não Iniciado"
    case Playing => "Jogando"
    case Finished => "Finalizado"
    case Abandoned => "Abandonado"
  }

  /** The eight external status strings are pairwise distinct and non-empty. */
  lemma StatusStringsDistinct()
    ensures forall a: Status, b: Status :: StatusName(a) == StatusName(b) ==> a == b
    ensures forall a: Status, b: Status :: StatusLabel(a) == StatusLabel(b) ==> a == b
    ensures forall a: Status, b: Status :: StatusName(a) != StatusLabel(b)
    ensures forall a: Status :: StatusName(a) != "" && StatusLabel(a) != ""
  {
  }

  /** The three platform variants (`JogoPC`, `JogoConsole`, `JogoMobile`). */
  datatype Platform = PC | Console | Mobile

  /** The platform string each variant passes to `Jogo.__init__`. */
  function PlatformName(p: Platform): string {
    match p
    case PC => "PC"
    case Console => "Console"
    case Mobile => "Mobile"
  }

  lemma LowerPlatformName(p: Platform)
    ensures Lower(PlatformName(p)) == match p
      case PC => "pc"
      case Console => "console"
      case Mobile => "mobile"
  {
    match p
    case PC => assert Lower("PC") == "pc";
    case Console => assert Lower("Console") == "console";
    case Mobile => assert Lower("Mobile") == "mobile";
  }

  /** The reasons an operation of the tracker refuses: each `ValueError` the tracker
      raises, and the refusals its command line prints. */
  datatype Error =
    | BlankTitle          // titulo setter: empty or whitespace-only title
    | NegativeHours       // horas_jogadas setter: value < 0
    | FinishTooEarly      // status setter: FINALIZADO with less than 1 hour
    | RatingBeforeFinish  // avaliacao setter / CLI: game not FINALIZADO
    | RatingOutOfRange    // avaliacao setter / CLI: rating outside [0, 10]
    | ResetNotStarted     // reiniciar_jogo: game still NAO_INICIADO
    | DuplicateGame       // Colecao.adicionar_jogo: an equal game is present
    | GameNotFound        // CLI: no game with that title
    | HoursDecrease       // CLI atualizar-jogo: new hours below stored hours

  /** A game. `title`, `hours`, `status` and `rating` are the validated properties;
      `genre` and `platform` are plain attributes. */
  datatype Game = Game(
    title: string,
    genre: string,
    platform: Platform,
    hours: real,
    status: Status,
    rating: Option<real>)

  /** The field invariant every operation keeps: hours are non-negative and a
      rating, when present, lies in [0, 10]. */
  predicate Valid(g: Game) {
    && g.hours >= 0.0
    && (g.rating.Some? ==> 0.0 <= g.rating.value <= 10.0)
  }

  /** `Jogo.__init__`: the title is stored without validation. */
  function NewGame(title: string, genre: string, platform: Platform): (g: Game)
    ensures g.title == title && g.genre == genre && g.platform == platform
    ensures g.hours == 0.0 && g.status == NotStarted && g.rating == None
    ensures Valid(g)
  {
    Game(title, genre, platform, 0.0, NotStarted, None)
  }

  /** The `titulo` setter: refuses an empty or whitespace-only value, otherwise
      stores it exactly as given (untrimmed). */
  function SetTitle(g: Game, value: string): (r: Result<Game, Error>)
    ensures r.Failure? <==> IsBlank(value)
    ensures r.Failure? ==> r.error == BlankTitle
    ensures r.Success? ==> r.value == g.(title := value)
  {
    if IsBlank(value) then Failure(BlankTitle) else Success(g.(title := value))
  }

  /** The `horas_jogadas` setter: refuses a negative value; any other value,
      including a smaller one, replaces the hours. */
  function SetHours(g: Game, value: real): (r: Result<Game, Error>)
    ensures r.Failure? <==> value < 0.0
    ensures r.Failure? ==> r.error == NegativeHours
    ensures r.Success? ==> r.value == g.(hours := value)
  {
    if value < 0.0 then Failure(NegativeHours) else Success(g.(hours := value))
  }

  /** The `status` setter: finishing needs at least one hour; every other
      assignment succeeds and leaves the rating as it was. */
  function SetStatus(g: Game, s: Status): (r: Result<Game, Error>)
    ensures r.Failure? <==> s == Finished && g.hours < 1.0
    ensures r.Failure? ==> r.error == FinishTooEarly
    ensures r.Success? ==> r.value == g.(status := s)
  {
    if s == Finished && g.hours < 1.0 then Failure(FinishTooEarly)
    else Success(g.(status := s))
  }

  /** The `avaliacao` setter: the game must be finished (checked first) and the
      rating must lie in [0, 10]. */
  function SetRating(g: Game, v: real): (r: Result<Game, Error>)
    ensures r.Failure? <==> g.status != Finished || !(0.0 <= v <= 10.0)
    ensures g.status != Finished ==> r == Failure(RatingBeforeFinish)
    ensures g.status == Finished && !(0.0 <= v <= 10.0) ==> r == Failure(RatingOutOfRange)
    ensures r.Success? ==> r.value == g.(rating := Some(v))
  {
    if g.status != Finished then Failure(RatingBeforeFinish)
    else if !(0.0 <= v <= 10.0) then Failure(RatingOutOfRange)
    else Success(g.(rating := Some(v)))
  }

  /** `__eq__`: the lower-cased titles and lower-cased platform names agree. Because
      the platform names differ once lower-cased, this is title-insensitive equality
      on the same platform variant. */
  function Equal(a: Game, b: Game): (r: bool)
    ensures r <==> Lower(a.title) == Lower(b.title) && a.platform == b.platform
  {
    LowerPlatformName(a.platform);
    LowerPlatformName(b.platform);
    Lower(a.title) == Lower(b.title)
      && Lower(PlatformName(a.platform)) == Lower(PlatformName(b.platform))
  }

  /** `__lt__`: fewer hours played. */
  function Less(a: Game, b: Game): bool {
    a.hours < b.hours
  }

  /** `__str__`: "{title} ({platform}) - {status label}". */
  function Describe(g: Game): (r: string)
    ensures |r| == |g.title| + |PlatformName(g.platform)| + |StatusLabel(g.status)| + 6
    ensures r[..|g.title|] == g.title
    ensures r[|g.title|..|g.title| + 2] == " ("
    ensures r[|g.title| + 2..|g.title| + 2 + |PlatformName(g.platform)|] == PlatformName(g.platform)
    ensures r[|g.title| + 2 + |PlatformName(g.platform)|..|r| - |StatusLabel(g.status)|] == ") - "
    ensures r[|r| - |StatusLabel(g.status)|..] == StatusLabel(g.status)
  {
    g.title + " (" + PlatformName(g.platform) + ") - " + StatusLabel(g.status)
  }

  /** Equality is an equivalence relation. */
  lemma EqualIsEquivalence(a: Game, b: Game, c: Game)
    ensures Equal(a, a)
    ensures Equal(a, b) ==> Equal(b, a)
    ensures Equal(a, b) && Equal(b, c) ==> Equal(a, c)
  {
  }

  /** Equality ignores genre, hours, status and rating. */
  lemma EqualIgnoresProgress(a: Game, b: Game, genre: string, hours: real, s: Status, rating: Option<real>)
    ensures Equal(a.(genre := genre, hours := hours, status := s, rating := rating), b) == Equal(a, b)
    ensures Equal(a, b.(genre := genre, hours := hours, status := s, rating := rating)) == Equal(a, b)
  {
  }

  /** `__lt__` is a strict order in which games with equal hours are incomparable. */
  lemma LessIsStrictOrder(a: Game, b: Game, c: Game)
    ensures !Less(a, a)
    ensures Less(a, b) ==> !Less(b, a)
    ensures Less(a, b) && Less(b, c) ==> Less(a, c)
    ensures !Less(a, b) && !Less(b, a) <==> a.hours == b.hours
  {
  }

  /** Two descriptions that start with the same title name the same platform and
      the same status. */
  lemma DescribeDeterminesPlatformAndStatus(a: Game, b: Game)
    requires a.title == b.title && Describe(a) == Describe(b)
    ensures a.platform == b.platform && a.status == b.status
  {
    var n := |a.title|;
    var da, db := Describe(a), Describe(b);
    assert da[n + 2] == PlatformName(a.platform)[0];
    assert db[n + 2] == PlatformName(b.platform)[0];
    assert a.platform == b.platform;
    var m := |da| - |StatusLabel(a.status)|;
    assert |StatusLabel(a.status)| == |StatusLabel(b.status)|;
    assert StatusLabel(a.status) == da[m..] == db[m..] == StatusLabel(b.status);
    StatusStringsDistinct();
  }

  /** Every setter keeps the field invariant. */
  lemma SettersPreserveValid(g: Game, title: string, hours: real, s: Status, v: real)
    requires Valid(g)
    ensures SetTitle(g, title).Success? ==> Valid(SetTitle(g, title).value)
    ensures SetHours(g, hours).Success? ==> Valid(SetHours(g, hours).value)
    ensures SetStatus(g, s).Success? ==> Valid(SetStatus(g, s).value)
    ensures SetRating(g, v).Success? ==> Valid(SetRating(g, v).value)
  {
  }

  /** No setter clears a rating, and only the title setter can change a game's
      identity. */
  lemma SettersKeepRatingAndIdentity(g: Game, title: string, hours: real, s: Status, v: real)
    ensures SetHours(g, hours).Success? ==> Equal(SetHours(g, hours).value, g)
    ensures SetStatus(g, s).Success? ==> Equal(SetStatus(g, s).value, g)
    ensures SetRating(g, v).Success? ==> Equal(SetRating(g, v).value, g)
    ensures SetTitle(g, title).Success? ==>
              (Equal(SetTitle(g, title).value, g) <==> Lower(title) == Lower(g.title))
    ensures g.rating.Some? && SetTitle(g, title).Success? ==> SetTitle(g, title).value.rating.Some?
    ensures g.rating.Some? && SetHours(g, hours).Success? ==> SetHours(g, hours).value.rating.Some?
    ensures g.rating.Some? && SetStatus(g, s).Success? ==> SetStatus(g, s).value.rating.Some?
    ensures g.rating.Some? && SetRating(g, v).Success? ==> SetRating(g, v).value.rating.Some?
  {
  }
}

=== FILE: modifications.dfy ===
/** The two free functions of `modificacoes.py` that take a game: `reiniciar_jogo`,
    the only operation that lowers hours and clears a rating in one step, and
    `__hash__`, which hashes a game's (lower title, lower platform) tuple. Nothing
    attaches either to `Jogo`, whose `__eq__` comes without a `__hash__`. */
module Modifications {
  import opened Wrappers
  import opened Text
  import opened Games

  /** `reiniciar_jogo`: refuses a game that was never started; otherwise writes the
      private fields directly, bypassing the setters: no hours, playing, no rating. */
  function Reset(g: Game): (r: Result<Game, Error>)
    ensures r.Failure? <==> g.status == NotStarted
    ensures r.Failure? ==> r.error == ResetNotStarted
    ensures r.Success? ==> r.value == g.(hours := 0.0, status := Playing, rating := None)
  {
    if g.status == NotStarted then Failure(ResetNotStarted)
    else Success(g.(hours := 0.0, status := Playing, rating := None))
  }

  /** The tuple `__hash__` hashes: lower-cased title and lower-cased platform name. */
  function IdentityKey(g: Game): (string, string) {
    (Lower(g.title), Lower(PlatformName(g.platform)))
  }

  /** Resetting a reset game changes nothing: the result is already playing. */
  lemma ResetIdempotent(g: Game)
    ensures Reset(g).Success? ==> Reset(Reset(g).value) == Reset(g)
  {
  }

  /** Reset keeps title, genre and platform (hence identity) and the field invariant. */
  lemma ResetKeepsIdentity(g: Game)
    requires Reset(g).Success?
    ensures var h := Reset(g).value;
      && h.title == g.title && h.genre == g.genre && h.platform == g.platform
      && Equal(h, g) && IdentityKey(h) == IdentityKey(g)
      && Valid(h)
  {
  }

  /** Two games are equal exactly when their identity keys are, so equal games hash
      alike. */
  lemma IdentityKeyMatchesEqual(a: Game, b: Game)
    ensures Equal(a, b) <==> IdentityKey(a) == IdentityKey(b)
  {
    LowerPlatformName(a.platform);
    LowerPlatformName(b.platform);
  }
}

=== FILE: platforms.dfy ===
/** The platform subclasses `JogoPC`, `JogoConsole` and `JogoMobile`: each is a
    new game whose platform is fixed by the variant. */
module Platforms {
  import opened Wrappers
  import opened Games

  /** `JogoPC(titulo, genero)`. */
  function NewPC(title: string, genre: string): (g: Game)
    ensures g.platform == PC && PlatformName(g.platform) == "PC"
    ensures g.title == title && g.genre == genre
    ensures g.hours == 0.0 && g.status == NotStarted && g.rating == None
  {
    NewGame(title, genre, PC)
  }

  /** `JogoConsole(titulo, genero)`. */
  function NewConsole(title: string, genre: string): (g: Game)
    ensures g.platform == Console && PlatformName(g.platform) == "Console"
    ensures g.title == title && g.genre == genre
    ensures g.hours == 0.0 && g.status == NotStarted && g.rating == None
  {
    NewGame(title, genre, Console)
  }

  /** `JogoMobile(titulo, genero)`. */
  function NewMobile(title: string, genre: string): (g: Game)
    ensures g.platform == Mobile && PlatformName(g.platform) == "Mobile"
    ensures g.title == title && g.genre == genre
    ensures g.hours == 0.0 && g.status == NotStarted && g.rating == None
  {
    NewGame(title, genre, Mobile)
  }

  /** Games built by two different variants are never equal, whatever their titles
      and genres. */
  lemma VariantsNeverEqual(t1: string, g1: string, t2: string, g2: string)
    ensures !Equal(NewPC(t1, g1), NewConsole(t2, g2))
    ensures !Equal(NewPC(t1, g1), NewMobile(t2, g2))
    ensures !Equal(NewConsole(t1, g1), NewMobile(t2, g2))
  {
  }

  /** Equal titles on the same variant make equal games, whatever the genres. */
  lemma SameVariantSameTitleEqual(t: string, g1: string, g2: string)
    ensures Equal(NewPC(t, g1), NewPC(t, g2))
    ensures Equal(NewConsole(t, g1), NewConsole(t, g2))
    ensures Equal(NewMobile(t, g1), NewMobile(t, g2))
  {
  }
}

=== FILE: records.dfy ===
/** The stored form of a game: the JSON dictionary the command line keeps per game,
    and the two helpers that convert between it and the game entity
    (`_jogo_de_dict` and `_jogo_para_dict`), with the status and platform lookups
    they rely on. */
module Records {
  import opened Wrappers
  import opened Text
  import opened Seqs
  import opened Games
  import opened Platforms

  /** A stored game dictionary. Each key holds a plain value; a key that is absent
      (or holds a falsy value where the loader writes `d.get(k) or ""`) is represented
      by the default the loader substitutes: "" for the strings, 0 for the hours,
      `None` for the rating. That default is the loader's reading only: the update
      command indexes the dictionary directly, where an absent key raises. */
  datatype Record = Record(
    title: string,     // "title"
    genre: string,     // "genero"
    platform: string,  // "platform"
    status: string,    // "status"
    hours: real,       // "horas_jogadas"
    rating: Option<real>)  // "avaliacao"

  /** The first status in declaration order whose name or label is `s`. */
  function FindStatus(s: string, sts: seq<Status>): (r: Option<Status>)
    ensures r.Some? ==> r.value in sts && (s == StatusName(r.value) || s == StatusLabel(r.value))
    ensures r.None? ==> forall i :: 0 <= i < |sts| ==> s != StatusName(sts[i]) && s != StatusLabel(sts[i])
    decreases |sts|
  {
    if |sts| == 0 then None
    else if s == StatusName(sts[0]) || s == StatusLabel(sts[0]) then Some(sts[0])
    else
      var r := FindStatus(s, sts[1..]);
      assert forall i :: 1 <= i < |sts| ==> sts[i] == sts[1..][i - 1];
      r
  }

  /** `_status_de_str`: the status whose name or label is `s`; `NAO_INICIADO` when
      nothing matches. It never fails. */
  function StatusFromString(s: string): (r: Status)
    ensures forall st: Status :: s == StatusName(st) || s == StatusLabel(st) ==> r == st
    ensures (forall st: Status :: s != StatusName(st) && s != StatusLabel(st)) ==> r == NotStarted
  {
    StatusStringsDistinct();
    AllStatusesListed();
    FindStatus(s, AllStatuses).GetOr(NotStarted)
  }

  /** Both spellings of a status read back as that status. */
  lemma StatusFromStringRoundTrip(st: Status)
    ensures StatusFromString(StatusName(st)) == st
    ensures StatusFromString(StatusLabel(st)) == st
  {
  }

  /** `validar_avaliacao`: the inclusive range [0, 10]. */
  predicate ValidRating(v: real) {
    0.0 <= v <= 10.0
  }

  /** On a finished game the rating setter accepts exactly the ratings the command
      line's range check accepts, so the two checks never disagree. */
  lemma ValidRatingMatchesSetter(g: Game, v: real)
    requires g.status == Finished
    ensures SetRating(g, v).Success? <==> ValidRating(v)
    ensures !ValidRating(v) ==> SetRating(g, v) == Failure(RatingOutOfRange)
  {
  }

  /** The platform dispatch of `_jogo_de_dict` on the lower-cased platform string:
      "pc" anywhere makes a PC game, otherwise "console" anywhere a console game,
      and everything else, the empty string included, a mobile game. */
  function PlatformFromString(p: string): (r: Platform)
    ensures r == PC <==> Occurs("pc", Lower(p))
    ensures r == Console <==> !Occurs("pc", Lower(p)) && Occurs("console", Lower(p))
    ensures r == Mobile <==> !Occurs("pc", Lower(p)) && !Occurs("console", Lower(p))
  {
    var q := Lower(p);
    if Contains(q, "pc") then PC
    else if Contains(q, "console") then Console
    else Mobile
  }

  /** The subclass constructor the dispatch selects. */
  function NewForPlatform(p: Platform, title: string, genre: string): (g: Game)
    ensures g == NewGame(title, genre, p)
  {
    match p
    case PC => NewPC(title, genre)
    case Console => NewConsole(title, genre)
    case Mobile => NewMobile(title, genre)
  }

  /** The platform name a game writes back is dispatched to its own platform. */
  lemma PlatformFromStringRoundTrip(p: Platform)
    ensures PlatformFromString(PlatformName(p)) == p
  {
    match p
    case PC => PCNameReadsBack();
    case Console => ConsoleNameReadsBack();
    case Mobile => MobileNameReadsBack();
  }

  lemma PCNameReadsBack()
    ensures PlatformFromString("PC") == PC
  {
    LowerPlatformName(PC);
    assert OccursAt("pc", "pc", 0);
  }

  lemma ConsoleNameReadsBack()
    ensures PlatformFromString("Console") == Console
  {
    LowerPlatformName(Console);
    AbsentFirstChar("pc", "console");
    assert OccursAt("console", "console", 0);
  }

  lemma MobileNameReadsBack()
    ensures PlatformFromString("Mobile") == Mobile
  {
    LowerPlatformName(Mobile);
    AbsentFirstChar("pc", "mobile");
    AbsentFirstChar("console", "mobile");
  }

  /** A record without a platform loads as a mobile game. */
  lemma MissingPlatformIsMobile()
    ensures PlatformFromString("") == Mobile
  {
    assert Lower("") == "";
  }

  /** `_jogo_de_dict`: builds the variant named by the platform with the title and
      genre, then assigns through the setters, in order, the hours, the status read
      by `_status_de_str`, and the rating when one is stored. The first setter that
      refuses decides the error. */
  function GameFromRecord(d: Record): (r: Result<Game, Error>)
    ensures r.Failure? <==>
      || d.hours < 0.0
      || (StatusFromString(d.status) == Finished && d.hours < 1.0)
      || (d.rating.Some? && (StatusFromString(d.status) != Finished || !ValidRating(d.rating.value)))
    ensures d.hours < 0.0 ==> r == Failure(NegativeHours)
    ensures d.hours >= 0.0 && StatusFromString(d.status) == Finished && d.hours < 1.0
            ==> r == Failure(FinishTooEarly)
    ensures d.hours >= 0.0 && StatusFromString(d.status) != Finished && d.rating.Some?
            ==> r == Failure(RatingBeforeFinish)
    ensures (&& d.hours >= 1.0 && StatusFromString(d.status) == Finished && d.rating.Some?
             && !ValidRating(d.rating.value)) ==> r == Failure(RatingOutOfRange)
    ensures r.Success? ==>
      && r.value.title == d.title && r.value.genre == d.genre
      && r.value.platform == PlatformFromString(d.platform)
      && r.value.hours == d.hours && r.value.status == StatusFromString(d.status)
      && r.value.rating == d.rating
    ensures r.Success? ==> Valid(r.value)
    ensures r.Failure? ==> r.error in {NegativeHours, FinishTooEarly, RatingBeforeFinish, RatingOutOfRange}
  {
    var g := NewForPlatform(PlatformFromString(d.platform), d.title, d.genre);
    var g1 :- SetHours(g, d.hours);
    var g2 :- SetStatus(g1, StatusFromString(d.status));
    if d.rating.Some? then SetRating(g2, d.rating.value) else Success(g2)
  }

  /** `_jogo_para_dict`: the platform is written by name and the status by label. */
  function GameToRecord(g: Game): (d: Record)
    ensures d.title == g.title && d.genre == g.genre && d.hours == g.hours && d.rating == g.rating
    ensures PlatformFromString(d.platform) == g.platform
    ensures StatusFromString(d.status) == g.status
  {
    PlatformFromStringRoundTrip(g.platform);
    StatusFromStringRoundTrip(g.status);
    Record(g.title, g.genre, PlatformName(g.platform), StatusLabel(g.status), g.hours, g.rating)
  }

  /** A game whose stored form loads back: no negative hours, at least one hour when
      finished, and a rating only on a finished game and within range. The title may
      be anything, the empty string included. */
  predicate Storable(g: Game) {
    && g.hours >= 0.0
    && (g.status == Finished ==> g.hours >= 1.0)
    && (g.rating.Some? ==> g.status == Finished && ValidRating(g.rating.value))
  }

  /** Storing then loading a game reproduces all six fields exactly when the game is
      storable; otherwise loading refuses. */
  lemma RecordRoundTrip(g: Game)
    ensures GameFromRecord(GameToRecord(g)).Success? <==> Storable(g)
    ensures Storable(g) ==> GameFromRecord(GameToRecord(g)) == Success(g)
  {
  }

  /** Every game the loader produces is storable, so loading, storing and loading
      again yields the same game, and storing it again the same record. */
  lemma LoadedGamesAreStorable(d: Record)
    requires GameFromRecord(d).Success?
    ensures Storable(GameFromRecord(d).value)
    ensures GameFromRecord(GameToRecord(GameFromRecord(d).value)) == GameFromRecord(d)
  {
    RecordRoundTrip(GameFromRecord(d).value);
  }

  /** A record already in stored form (platform written by name, status by label)
      is reproduced by loading and storing it. */
  lemma CanonicalRecordRoundTrip(d: Record, p: Platform, st: Status)
    requires d.platform == PlatformName(p) && d.status == StatusLabel(st)
    requires GameFromRecord(d).Success?
    ensures GameToRecord(GameFromRecord(d).value) == d
  {
    PlatformFromStringRoundTrip(p);
    StatusFromStringRoundTrip(st);
  }

  /** `_construir_jogos_de_armazenamento` for one collection: loads every stored
      game in order; the first record the loader refuses aborts the whole load. */
  function LoadGames(records: seq<Record>): (r: Result<seq<Game>, Error>)
    ensures r.Success? <==> forall i :: 0 <= i < |records| ==> GameFromRecord(records[i]).Success?
    ensures r.Success? ==> |r.value| == |records|
    ensures r.Success? ==>
      forall i :: 0 <= i < |records| ==> r.value[i] == GameFromRecord(records[i]).value
    ensures r.Failure? ==> exists i :: && 0 <= i < |records| && GameFromRecord(records[i]) == Failure(r.error)
                                       && forall j :: 0 <= j < i ==> GameFromRecord(records[j]).Success?
  {
    MapAll(records, GameFromRecord)
  }

  /** Storing a list of storable games and loading it back gives the same list. */
  lemma LoadStoredGames(games: seq<Game>)
    requires forall i :: 0 <= i < |games| ==> Storable(games[i])
    ensures LoadGames(Map(games, GameToRecord)) == Success(games)
  {
    var rs := Map(games, GameToRecord);
    forall i | 0 <= i < |rs|
      ensures GameFromRecord(rs[i]) == Success(games[i])
    {
      RecordRoundTrip(games[i]);
    }
    var r := LoadGames(rs);
    assert r.Success?;
    assert r.value == games;
  }
}

=== FILE: reports.dfy ===
/** `Relatorio`: read-only aggregates, filters and rankings over a sequence of
    games. Every operation is total and leaves its input untouched. */
module Reports {
  import opened Wrappers
  import opened Text
  import opened Seqs
  import opened Sorting
  import opened Games

  /** The sort key of `ordenar_por_horas` and `top_5_mais_jogados`. */
  function HoursOf(g: Game): real {
    g.hours
  }

  /** The sort key of `ordenar_por_avaliacao`; only applied to rated games. */
  function RatingOf(g: Game): real {
    g.rating.GetOr(0.0)
  }

  /** Python truthiness of `j.avaliacao`: `None` and `0.0` are both false. */
  predicate HasTruthyRating(g: Game) {
    g.rating.Some? && g.rating.value != 0.0
  }

  /** The games `media_avaliacao_finalizados` averages over. */
  predicate RatedFinished(g: Game) {
    g.status == Finished && HasTruthyRating(g)
  }

  /** `total_horas`: `sum(j.horas_jogadas for j in jogos)`. */
  function TotalHours(games: seq<Game>): (r: real)
    ensures |games| == 0 ==> r == 0.0
    ensures |games| == 1 ==> r == games[0].hours
    ensures (forall g :: g in games ==> g.hours >= 0.0) ==> r >= 0.0
    ensures (forall g :: g in games ==> g.hours >= 0.0) ==>
              forall i :: 0 <= i < |games| ==> games[i].hours <= r
  {
    if |games| == 0 then 0.0
    else
      assert forall g :: g in games[1..] ==> g in games;
      games[0].hours + TotalHours(games[1..])
  }

  /** The total over a concatenation is the sum of the totals. */
  lemma {:induction false} TotalHoursConcat(a: seq<Game>, b: seq<Game>)
    ensures TotalHours(a + b) == TotalHours(a) + TotalHours(b)
    decreases |a|
  {
    if |a| > 0 {
      assert (a + b)[1..] == a[1..] + b;
      TotalHoursConcat(a[1..], b);
    } else {
      assert a + b == b;
    }
  }

  lemma {:induction false} TotalHoursInsert(x: Game, r: seq<Game>, key: Game -> real)
    ensures TotalHours(Insert(x, r, key)) == x.hours + TotalHours(r)
    decreases |r|
  {
    if |r| == 0 || key(x) >= key(r[0]) {
      assert ([x] + r)[1..] == r;
    } else {
      TotalHoursInsert(x, r[1..], key);
      assert ([r[0]] + Insert(x, r[1..], key))[1..] == Insert(x, r[1..], key);
    }
  }

  /** Reordering by any key leaves the total unchanged. */
  lemma {:induction false} TotalHoursSorted(s: seq<Game>, key: Game -> real)
    ensures TotalHours(SortDesc(s, key)) == TotalHours(s)
    decreases |s|
  {
    if |s| > 0 {
      TotalHoursSorted(s[1..], key);
      TotalHoursInsert(s[0], SortDesc(s[1..], key), key);
    }
  }

  /** `sum(j.avaliacao for j in xs)` over games whose rating is present. */
  function SumRatings(games: seq<Game>): real {
    if |games| == 0 then 0.0 else RatingOf(games[0]) + SumRatings(games[1..])
  }

  /** How many games qualify for the mean: `len(finalizados)`. */
  function RatedCount(games: seq<Game>): (r: nat)
    ensures r == 0 <==> forall i :: 0 <= i < |games| ==> !RatedFinished(games[i])
    decreases |games|
  {
    if |games| == 0 then 0
    else (if RatedFinished(games[0]) then 1 else 0) + RatedCount(games[1..])
  }

  /** The ratings of the qualifying games added up: `sum(j.avaliacao for j in finalizados)`. */
  function RatedSum(games: seq<Game>): real
    decreases |games|
  {
    if |games| == 0 then 0.0
    else (if RatedFinished(games[0]) then RatingOf(games[0]) else 0.0) + RatedSum(games[1..])
  }

  /** The running count and sum are those of the list `finalizados` that
      `media_avaliacao_finalizados` builds. */
  lemma {:induction false} RatedTotalsAreFilterTotals(games: seq<Game>)
    ensures RatedCount(games) == |Filter(games, RatedFinished)|
    ensures RatedSum(games) == SumRatings(Filter(games, RatedFinished))
    decreases |games|
  {
    if |games| > 0 {
      var q := Filter(games[1..], RatedFinished);
      RatedTotalsAreFilterTotals(games[1..]);
      FilterHead(games, RatedFinished);
      if RatedFinished(games[0]) {
        assert ([games[0]] + q)[1..] == q;
      } else {
        assert Filter(games, RatedFinished) == q;
      }
    }
  }

  /** Over valid games every qualifying rating lies in [0, 10], and so does their sum
      relative to their number. */
  lemma {:induction false} RatedSumBounds(games: seq<Game>)
    requires forall i :: 0 <= i < |games| ==> Valid(games[i])
    ensures 0.0 <= RatedSum(games) <= 10.0 * (RatedCount(games) as real)
    decreases |games|
  {
    if |games| > 0 {
      RatedSumBounds(games[1..]);
    }
  }

  /** `s / n`; a sum bounded by `10 * n` gives a mean in [0, 10]. */
  function Mean(s: real, n: nat): (r: real)
    requires n > 0
    ensures r * (n as real) == s
    ensures 0.0 <= s <= 10.0 * (n as real) ==> 0.0 <= r <= 10.0
  {
    s / (n as real)
  }

  /** `media_avaliacao_finalizados`: the mean rating over finished games whose rating
      is truthy (so a rating of exactly 0 is left out); 0 when none qualifies. */
  function AverageRatingFinished(games: seq<Game>): (r: real)
    ensures (forall i :: 0 <= i < |games| ==> !RatedFinished(games[i])) ==> r == 0.0
    ensures (forall i :: 0 <= i < |games| ==> Valid(games[i])) ==> 0.0 <= r <= 10.0
  {
    var n := RatedCount(games);
    if n == 0 then 0.0
    else
      assert (forall i :: 0 <= i < |games| ==> Valid(games[i]))
             ==> 0.0 <= RatedSum(games) <= 10.0 * (n as real) by {
        if forall i :: 0 <= i < |games| ==> Valid(games[i]) {
          RatedSumBounds(games);
        }
      }
      Mean(RatedSum(games), n)
  }

  /** When some game qualifies, the mean times the number of qualifying games gives
      back the sum of their ratings. */
  lemma AverageTimesCount(games: seq<Game>)
    requires RatedCount(games) > 0
    ensures AverageRatingFinished(games) * (RatedCount(games) as real) == RatedSum(games)
  {
    var m := Mean(RatedSum(games), RatedCount(games));
    assert AverageRatingFinished(games) == m;
  }

  /** The mean depends only on the list of qualifying games, as
      `media_avaliacao_finalizados` computes it: `sum(finalizados) / len(finalizados)`. */
  lemma AverageIsMeanOfQualifying(games: seq<Game>)
    ensures var q := Filter(games, RatedFinished);
      && (|q| == 0 ==> AverageRatingFinished(games) == 0.0)
      && (|q| > 0 ==> AverageRatingFinished(games) == Mean(SumRatings(q), |q|))
  {
    RatedTotalsAreFilterTotals(games);
  }

  /** A game that does not qualify, in particular a finished game rated exactly 0,
      never moves the mean, wherever it is placed. */
  lemma UnqualifiedGameIgnored(a: seq<Game>, g: Game, b: seq<Game>)
    requires !RatedFinished(g)
    ensures AverageRatingFinished(a + [g] + b) == AverageRatingFinished(a + b)
  {
    RatedTotalsConcat(a + [g], b);
    RatedTotalsConcat(a, [g]);
    RatedTotalsConcat(a, b);
    assert RatedCount([g]) == 0 && RatedSum([g]) == 0.0 by {
      assert [g][1..] == [];
    }
    AverageDependsOnTotals(a + [g] + b, a + b);
  }

  /** The mean depends only on how many games qualify and on their rating sum. */
  lemma AverageDependsOnTotals(x: seq<Game>, y: seq<Game>)
    requires RatedCount(x) == RatedCount(y) && RatedSum(x) == RatedSum(y)
    ensures AverageRatingFinished(x) == AverageRatingFinished(y)
  {
  }

  lemma {:induction false} RatedTotalsConcat(a: seq<Game>, b: seq<Game>)
    ensures RatedCount(a + b) == RatedCount(a) + RatedCount(b)
    ensures RatedSum(a + b) == RatedSum(a) + RatedSum(b)
    decreases |a|
  {
    if |a| > 0 {
      assert (a + b)[1..] == a[1..] + b;
      RatedTotalsConcat(a[1..], b);
    } else {
      assert a + b == b;
    }
  }

  /** The games whose status is `st`. */
  function StatusIs(st: Status): Game -> bool {
    (g: Game) => g.status == st
  }

  /** The number of games with status `st`. */
  function CountStatus(games: seq<Game>, st: Status): (r: nat)
    ensures r <= |games|
  {
    if |games| == 0 then 0
    else (if games[0].status == st then 1 else 0) + CountStatus(games[1..], st)
  }

  /** The count is the length of `[j for j in jogos if j.status == status]`. */
  lemma {:induction false} CountStatusIsFilterLength(games: seq<Game>, st: Status)
    ensures CountStatus(games, st) == |Filter(games, StatusIs(st))|
    decreases |games|
  {
    if |games| > 0 {
      CountStatusIsFilterLength(games[1..], st);
      FilterHead(games, StatusIs(st));
    }
  }

  lemma {:induction false} CountsAddUp(games: seq<Game>)
    ensures CountStatus(games, NotStarted) + CountStatus(games, Playing)
          + CountStatus(games, Finished) + CountStatus(games, Abandoned) == |games|
    decreases |games|
  {
    if |games| > 0 {
      CountsAddUp(games[1..]);
    }
  }

  /** The share of status `st`, as `(count / total) * 100`. */
  function Percentage(games: seq<Game>, st: Status): (r: real)
    requires |games| > 0
    ensures r * (|games| as real) == 100.0 * (CountStatus(games, st) as real)
    ensures 0.0 <= r <= 100.0
  {
    Share(CountStatus(games, st), |games|)
  }

  /** `(c / n) * 100`, the percentage `c` makes of `n`. */
  function Share(c: nat, n: nat): (r: real)
    requires 0 < n && c <= n
    ensures r * (n as real) == 100.0 * (c as real)
    ensures 0.0 <= r <= 100.0
  {
    ((c as real) / (n as real)) * 100.0
  }

  /** Shares of disjoint counts add up. */
  lemma ShareAdd(c1: nat, c2: nat, n: nat)
    requires 0 < n && c1 + c2 <= n
    ensures Share(c1, n) + Share(c2, n) == Share(c1 + c2, n)
  {
    var m := n as real;
    var x1, x2, y := (c1 as real) / m, (c2 as real) / m, ((c1 + c2) as real) / m;
    assert x1 * m == c1 as real && x2 * m == c2 as real && y * m == (c1 + c2) as real;
    assert (x1 + x2) * m == x1 * m + x2 * m;
    CancelPositive(x1 + x2, y, m);
  }

  lemma CancelPositive(a: real, b: real, m: real)
    requires m > 0.0 && a * m == b * m
    ensures a == b
  {
    assert (a - b) * m == 0.0;
  }

  /** The whole is 100 percent. */
  lemma ShareWhole(n: nat)
    requires 0 < n
    ensures Share(n, n) == 100.0
  {
  }

  /** Shares of counts that make up the whole add up to 100. */
  lemma SharesAddUp(c1: nat, c2: nat, c3: nat, c4: nat, n: nat)
    requires n > 0 && c1 + c2 + c3 + c4 == n
    ensures Share(c1, n) + Share(c2, n) + Share(c3, n) + Share(c4, n) == 100.0
  {
    ShareAdd(c1, c2, n);
    ShareAdd(c1 + c2, c3, n);
    ShareAdd(c1 + c2 + c3, c4, n);
    ShareWhole(n);
  }

  /** The dictionary `percentual_por_status` builds, as its items in insertion order:
      one entry per status label, in the order `for status in StatusJogo` visits
      them, so the keys are distinct and every status has its entry. */
  function StatusEntries(p: Status -> real): (r: seq<(string, real)>)
    ensures |r| == |AllStatuses|
    ensures forall i :: 0 <= i < |r| ==> r[i].0 == StatusLabel(AllStatuses[i]) && r[i].1 == p(AllStatuses[i])
    ensures forall i, j :: 0 <= i < j < |r| ==> r[i].0 != r[j].0
    ensures forall st: Status :: (StatusLabel(st), p(st)) in r
  {
    StatusStringsDistinct();
    var r := seq(|AllStatuses|, i requires 0 <= i < |AllStatuses| => (StatusLabel(AllStatuses[i]), p(AllStatuses[i])));
    EntriesCoverStatuses(p, r);
    r
  }

  /** A list holding each status's entry in `StatusJogo` order has an entry for
      every status. */
  lemma EntriesCoverStatuses(p: Status -> real, r: seq<(string, real)>)
    requires |r| == |AllStatuses|
    requires forall i :: 0 <= i < |r| ==> r[i] == (StatusLabel(AllStatuses[i]), p(AllStatuses[i]))
    ensures forall st: Status :: (StatusLabel(st), p(st)) in r
  {
    forall st: Status
      ensures (StatusLabel(st), p(st)) in r
    {
      match st
      case NotStarted => assert r[0] == (StatusLabel(st), p(st));
      case Playing => assert r[1] == (StatusLabel(st), p(st));
      case Finished => assert r[2] == (StatusLabel(st), p(st));
      case Abandoned => assert r[3] == (StatusLabel(st), p(st));
    }
  }

  /** `percentual_por_status`: empty for no games; otherwise one entry per status
      label, in `StatusJogo` order, holding that status's share, the four shares
      adding up to 100. */
  function PercentageByStatus(games: seq<Game>): (r: seq<(string, real)>)
    ensures |games| == 0 <==> r == []
    ensures |games| > 0 ==> |r| == |AllStatuses| && forall i :: 0 <= i < |r| ==>
      r[i].0 == StatusLabel(AllStatuses[i]) && r[i].1 == Percentage(games, AllStatuses[i])
    ensures forall i, j :: 0 <= i < j < |r| ==> r[i].0 != r[j].0
    ensures |games| > 0 ==> forall st: Status :: (StatusLabel(st), Percentage(games, st)) in r
    ensures |games| > 0 ==> r[0].1 + r[1].1 + r[2].1 + r[3].1 == 100.0
  {
    if |games| == 0 then []
    else
      CountsAddUp(games);
      SharesAddUp(CountStatus(games, NotStarted), CountStatus(games, Playing),
                  CountStatus(games, Finished), CountStatus(games, Abandoned), |games|);
      StatusEntries((st: Status) => Percentage(games, st))
  }

  /** `ordenar_por_horas`: a stable sort by hours, most played first. */
  function SortByHours(games: seq<Game>): (r: seq<Game>)
    ensures multiset(r) == multiset(games)
    ensures forall i, j :: 0 <= i < j < |r| ==> r[i].hours >= r[j].hours
    ensures Stable(r, games, HoursOf)
  {
    SortDesc(games, HoursOf)
  }

  /** Along the hours ranking no game is `__lt__`-greater than one placed after it. */
  lemma SortByHoursAgreesWithLess(games: seq<Game>)
    ensures var r := SortByHours(games);
      forall i, j :: 0 <= i < j < |r| ==> !Less(r[i], r[j])
  {
  }

  /** `top_5_mais_jogados`: the first five of the hours ranking (all of it when
      shorter). */
  function Top5ByHours(games: seq<Game>): (r: seq<Game>)
    ensures |r| == if |games| < 5 then |games| else 5
    ensures r == SortByHours(games)[..|r|]
    ensures forall i, j :: 0 <= i < j < |r| ==> r[i].hours >= r[j].hours
    ensures forall g :: multiset(r)[g] <= multiset(games)[g]
    ensures forall g, i :: 0 <= i < |r| && multiset(r)[g] < multiset(games)[g] ==> g.hours <= r[i].hours
  {
    var sorted := SortByHours(games);
    var n := if |sorted| < 5 then |sorted| else 5;
    PrefixOfRanking(sorted, games, n);
    sorted[..n]
  }

  /** A prefix of a ranking of `games` holds the highest-ranked games: whatever it
      leaves out has no more hours than anything it keeps. */
  lemma PrefixOfRanking(sorted: seq<Game>, games: seq<Game>, n: nat)
    requires multiset(sorted) == multiset(games) && n <= |sorted|
    requires forall i, j :: 0 <= i < j < |sorted| ==> sorted[i].hours >= sorted[j].hours
    ensures forall i, j :: 0 <= i < j < n ==> sorted[..n][i].hours >= sorted[..n][j].hours
    ensures forall g :: multiset(sorted[..n])[g] <= multiset(games)[g]
    ensures forall g, i :: 0 <= i < n && multiset(sorted[..n])[g] < multiset(games)[g]
                           ==> g.hours <= sorted[..n][i].hours
  {
    var r, rest := sorted[..n], sorted[n..];
    assert sorted == r + rest;
    assert multiset(sorted) == multiset(r) + multiset(rest);
    forall g, i | 0 <= i < n && multiset(r)[g] < multiset(games)[g]
      ensures g.hours <= sorted[i].hours
    {
      assert g in multiset(rest);
      var j :| 0 <= j < |rest| && rest[j] == g;
      assert sorted[n + j] == g;
    }
  }

  /** The games whose genre equals `genre`, ignoring case. */
  function GenreIs(genre: string): Game -> bool {
    (g: Game) => Lower(g.genre) == Lower(genre)
  }

  /** `filtrar_por_genero`: the games whose genre matches ignoring case, in order. */
  function FilterByGenre(games: seq<Game>, genre: string): (r: seq<Game>)
    ensures forall i :: 0 <= i < |r| ==> Lower(r[i].genre) == Lower(genre)
    ensures forall g :: multiset(r)[g]
                        == if Lower(g.genre) == Lower(genre) then multiset(games)[g] else 0
    ensures IsSubsequence(r, games)
  {
    FilterMultiplicity(games, GenreIs(genre));
    Filter(games, GenreIs(genre))
  }

  /** The games whose platform name equals `platform`, ignoring case. */
  function PlatformIs(platform: string): Game -> bool {
    (g: Game) => Lower(PlatformName(g.platform)) == Lower(platform)
  }

  /** `filtrar_por_plataforma`: the games whose platform name matches ignoring case,
      in order. */
  function FilterByPlatform(games: seq<Game>, platform: string): (r: seq<Game>)
    ensures forall i :: 0 <= i < |r| ==> Lower(PlatformName(r[i].platform)) == Lower(platform)
    ensures forall g :: multiset(r)[g]
                        == if Lower(PlatformName(g.platform)) == Lower(platform)
                           then multiset(games)[g] else 0
    ensures IsSubsequence(r, games)
  {
    FilterMultiplicity(games, PlatformIs(platform));
    Filter(games, PlatformIs(platform))
  }

  /** Asked for a variant's own name, the platform filter keeps exactly that variant. */
  lemma FilterByPlatformSelectsVariant(games: seq<Game>, p: Platform)
    ensures var r := FilterByPlatform(games, PlatformName(p));
      forall g :: multiset(r)[g] == if g.platform == p then multiset(games)[g] else 0
  {
    LowerPlatformName(p);
    forall g: Game ensures Lower(PlatformName(g.platform)) == Lower(PlatformName(p)) <==> g.platform == p {
      LowerPlatformName(g.platform);
    }
  }

  /** `filtrar_por_status`: the games with exactly that status, in order. */
  function FilterByStatus(games: seq<Game>, st: Status): (r: seq<Game>)
    ensures forall i :: 0 <= i < |r| ==> r[i].status == st
    ensures forall g :: multiset(r)[g] == if g.status == st then multiset(games)[g] else 0
    ensures IsSubsequence(r, games)
  {
    FilterMultiplicity(games, StatusIs(st));
    Filter(games, StatusIs(st))
  }

  /** The games whose lower-cased title contains the lower-cased query. */
  function TitleContains(query: string): Game -> bool {
    (g: Game) => Contains(Lower(g.title), Lower(query))
  }

  /** `buscar_por_titulo`: the games whose title contains the query, ignoring case,
      in order. */
  function SearchByTitle(games: seq<Game>, query: string): (r: seq<Game>)
    ensures forall i :: 0 <= i < |r| ==> Occurs(Lower(query), Lower(r[i].title))
    ensures forall g :: multiset(r)[g]
                        == if Occurs(Lower(query), Lower(g.title)) then multiset(games)[g] else 0
    ensures IsSubsequence(r, games)
  {
    FilterMultiplicity(games, TitleContains(query));
    Filter(games, TitleContains(query))
  }

  /** The empty query matches every title. */
  lemma SearchEmptyQueryKeepsAll(games: seq<Game>)
    ensures SearchByTitle(games, "") == games
  {
    forall i | 0 <= i < |games|
      ensures TitleContains("")(games[i])
    {
      EmptyOccursEverywhere(Lower(games[i].title));
    }
    FilterKeepsAll(games, TitleContains(""));
  }

  /** `ordenar_por_avaliacao`: the games with a truthy rating (unrated and 0-rated
      games are dropped), stably sorted by rating, best first. */
  function SortByRating(games: seq<Game>): (r: seq<Game>)
    ensures forall g :: multiset(r)[g] == if HasTruthyRating(g) then multiset(games)[g] else 0
    ensures forall i :: 0 <= i < |r| ==> HasTruthyRating(r[i])
    ensures forall i, j :: 0 <= i < j < |r| ==> RatingOf(r[i]) >= RatingOf(r[j])
    ensures Stable(r, Filter(games, HasTruthyRating), RatingOf)
  {
    var rated := Filter(games, HasTruthyRating);
    FilterMultiplicity(games, HasTruthyRating);
    var r := SortDesc(rated, RatingOf);
    assert forall i :: 0 <= i < |r| ==> r[i] in multiset(rated);
    r
  }
}

=== FILE: seqs.dfy ===
/** Order-preserving selection on sequences: the shape of Python's
    `[x for x in xs if p(x)]` and `[f(x) for x in xs]`. */
module Seqs {

  /** `r` can be obtained from `s` by deleting elements, keeping the order of the rest. */
  ghost predicate IsSubsequence<T>(r: seq<T>, s: seq<T>)
    decreases |s|
  {
    || |r| == 0
    || (&& |s| > 0
        && if r[0] == s[0] then IsSubsequence(r[1..], s[1..]) else IsSubsequence(r, s[1..]))
  }

  /** `[x for x in s if p(x)]`: the elements of `s` that satisfy `p`, each as often as
      in `s`, in their original order. */
  function Filter<T(!new)>(s: seq<T>, p: T -> bool): (r: seq<T>)
    ensures |r| <= |s|
    ensures forall i :: 0 <= i < |r| ==> p(r[i])
    ensures forall x :: x in r <==> x in s && p(x)
    ensures IsSubsequence(r, s)
  {
    if |s| == 0 then []
    else
      var rest := Filter(s[1..], p);
      assert s == [s[0]] + s[1..];
      if p(s[0]) then
        var r := [s[0]] + rest;
        assert r[1..] == rest;
        r
      else
        assert |rest| > 0 ==> rest[0] != s[0];
        rest
  }

  /** Every element satisfying `p` keeps its multiplicity; every other element is gone. */
  lemma {:induction false} FilterMultiplicity<T(!new)>(s: seq<T>, p: T -> bool)
    ensures forall x :: multiset(Filter(s, p))[x] == if p(x) then multiset(s)[x] else 0
    decreases |s|
  {
    if |s| > 0 {
      FilterMultiplicity(s[1..], p);
      assert s == [s[0]] + s[1..];
      FilterCons(s[0], s[1..], p);
    }
  }

  /** Filtering a sequence with a known first element. */
  lemma FilterCons<T(!new)>(x: T, t: seq<T>, p: T -> bool)
    ensures Filter([x] + t, p) == (if p(x) then [x] else []) + Filter(t, p)
  {
    assert ([x] + t)[1..] == t;
  }

  /** Filtering distributes over concatenation. */
  lemma {:induction false} FilterConcat<T(!new)>(a: seq<T>, b: seq<T>, p: T -> bool)
    ensures Filter(a + b, p) == Filter(a, p) + Filter(b, p)
    decreases |a|
  {
    if |a| > 0 {
      assert (a + b)[1..] == a[1..] + b;
      FilterConcat(a[1..], b, p);
    } else {
      assert a + b == b;
    }
  }

  /** A sequence whose every element satisfies `p` is its own filter. */
  lemma {:induction false} FilterKeepsAll<T(!new)>(s: seq<T>, p: T -> bool)
    requires forall i :: 0 <= i < |s| ==> p(s[i])
    ensures Filter(s, p) == s
    decreases |s|
  {
    if |s| > 0 {
      FilterKeepsAll(s[1..], p);
    }
  }

  /** Filtering twice with the same predicate is filtering once. */
  lemma FilterIdempotent<T(!new)>(s: seq<T>, p: T -> bool)
    ensures Filter(Filter(s, p), p) == Filter(s, p)
  {
    FilterKeepsAll(Filter(s, p), p);
  }

  /** `[f(x) for x in s]`. */
  function Map<T, U>(s: seq<T>, f: T -> U): (r: seq<U>)
    ensures |r| == |s|
    ensures forall i :: 0 <= i < |s| ==> r[i] == f(s[i])
  {
    seq(|s|, i requires 0 <= i < |s| => f(s[i]))
  }

  /** Mapping then filtering by `q` equals filtering by the pulled-back predicate `p`
      then mapping. */
  lemma {:induction false} FilterMap<T(!new), U(!new)>(s: seq<T>, f: T -> U, p: T -> bool, q: U -> bool)
    requires forall x :: p(x) == q(f(x))
    ensures Filter(Map(s, f), q) == Map(Filter(s, p), f)
    decreases |s|
  {
    if |s| > 0 {
      var t := s[1..];
      var head := if p(s[0]) then [s[0]] else [];
      MapHead(s, f);
      FilterHead(Map(s, f), q);
      FilterHead(s, p);
      FilterMap(t, f, p, q);
      MapConcat(head, Filter(t, p), f);
      assert Map(head, f) == if q(f(s[0])) then [f(s[0])] else [];
    }
  }

  /** `Filter` unfolded once on a non-empty sequence. */
  lemma FilterHead<T(!new)>(s: seq<T>, p: T -> bool)
    requires |s| > 0
    ensures Filter(s, p) == (if p(s[0]) then [s[0]] else []) + Filter(s[1..], p)
  {
  }

  /** `Map` unfolded once on a non-empty sequence. */
  lemma MapHead<T, U>(s: seq<T>, f: T -> U)
    requires |s| > 0
    ensures Map(s, f)[0] == f(s[0]) && Map(s, f)[1..] == Map(s[1..], f)
  {
  }

  /** Mapping an updated sequence updates the mapped sequence at the same index. */
  lemma MapUpdate<T, U>(s: seq<T>, i: nat, x: T, f: T -> U)
    requires i < |s|
    ensures Map(s[i := x], f) == Map(s, f)[i := f(x)]
  {
  }

  /** Mapping distributes over concatenation. */
  lemma MapConcat<T, U>(a: seq<T>, b: seq<T>, f: T -> U)
    ensures Map(a + b, f) == Map(a, f) + Map(b, f)
  {
  }
}

=== FILE: sorting.dfy ===
/** A stable sort into non-increasing key order: the behaviour of Python's
    `sorted(xs, key=key, reverse=True)`, which keeps items with equal keys in
    their input order. */
module Sorting {
  import opened Seqs

  /** Keys never increase from left to right. */
  ghost predicate SortedDesc<T>(s: seq<T>, key: T -> real) {
    forall i, j :: 0 <= i < j < |s| ==> key(s[i]) >= key(s[j])
  }

  /** Selects the items whose key is exactly `k`. */
  function HasKey<T>(key: T -> real, k: real): T -> bool {
    x => key(x) == k
  }

  lemma HasKeyMeans<T>(key: T -> real, k: real, y: T)
    ensures HasKey(key, k)(y) <==> key(y) == k
  {
  }

  /** For every key value, the items carrying it appear in `r` in the same order
      (and with the same multiplicities) as in `s`. */
  ghost predicate Stable<T(!new)>(r: seq<T>, s: seq<T>, key: T -> real) {
    forall k :: Filter(r, HasKey(key, k)) == Filter(s, HasKey(key, k))
  }

  /** Inserts `x` into a non-increasing `r` in front of every item whose key is not
      greater than its own. */
  function Insert<T>(x: T, r: seq<T>, key: T -> real): seq<T>
  {
    if |r| == 0 || key(x) >= key(r[0]) then [x] + r
    else [r[0]] + Insert(x, r[1..], key)
  }

  lemma SortedTail<T>(r: seq<T>, key: T -> real)
    requires |r| > 0 && SortedDesc(r, key)
    ensures SortedDesc(r[1..], key)
    ensures forall j :: 0 <= j < |r| ==> key(r[0]) >= key(r[j])
  {
    forall i, j | 0 <= i < j < |r[1..]|
      ensures key(r[1..][i]) >= key(r[1..][j])
    {
      assert r[1..][i] == r[i + 1] && r[1..][j] == r[j + 1];
    }
  }

  lemma {:induction false} InsertPermutes<T>(x: T, r: seq<T>, key: T -> real)
    ensures multiset(Insert(x, r, key)) == multiset(r) + multiset{x}
  {
    if |r| == 0 || key(x) >= key(r[0]) {
    } else {
      InsertPermutes(x, r[1..], key);
      assert r == [r[0]] + r[1..];
    }
  }

  lemma {:induction false} InsertSorted<T>(x: T, r: seq<T>, key: T -> real)
    requires SortedDesc(r, key)
    ensures SortedDesc(Insert(x, r, key), key)
  {
    if |r| == 0 || key(x) >= key(r[0]) {
    } else {
      var t := Insert(x, r[1..], key);
      SortedTail(r, key);
      InsertSorted(x, r[1..], key);
      InsertPermutes(x, r[1..], key);
      forall j | 0 <= j < |t|
        ensures key(r[0]) >= key(t[j])
      {
        assert t[j] in multiset(t);
        if t[j] != x {
          assert t[j] in r[1..];
          var m :| 0 <= m < |r[1..]| && r[1..][m] == t[j];
          assert r[m + 1] == t[j];
        }
      }
      var u := [r[0]] + t;
      assert Insert(x, r, key) == u;
      forall i, j | 0 <= i < j < |u|
        ensures key(u[i]) >= key(u[j])
      {
        assert u[j] == t[j - 1];
        if i > 0 {
          assert u[i] == t[i - 1];
        }
      }
    }
  }

  lemma {:induction false} InsertFilter<T(!new)>(x: T, r: seq<T>, key: T -> real, k: real)
    requires SortedDesc(r, key)
    ensures Filter(Insert(x, r, key), HasKey(key, k))
         == (if key(x) == k then [x] else []) + Filter(r, HasKey(key, k))
  {
    var p := HasKey(key, k);
    HasKeyMeans(key, k, x);
    if |r| == 0 || key(x) >= key(r[0]) {
      assert Insert(x, r, key) == [x] + r;
      FilterCons(x, r, p);
    } else {
      var t := Insert(x, r[1..], key);
      assert Insert(x, r, key) == [r[0]] + t;
      SortedTail(r, key);
      InsertFilter(x, r[1..], key, k);
      assert Filter(t, p) == (if p(x) then [x] else []) + Filter(r[1..], p);
      FilterCons(r[0], t, p);
      assert r == [r[0]] + r[1..];
      FilterCons(r[0], r[1..], p);
      var f1 := Filter(r[1..], p);
      HasKeyMeans(key, k, r[0]);
      if key(x) == k {
        assert Filter(r, p) == f1;
        assert Filter(Insert(x, r, key), p) == [x] + f1;
      } else if p(r[0]) {
        assert Filter(r, p) == [r[0]] + f1;
        assert Filter(Insert(x, r, key), p) == [r[0]] + f1;
      } else {
        assert Filter(r, p) == f1;
        assert Filter(Insert(x, r, key), p) == f1;
      }
    }
  }

  /** `sorted(s, key=key, reverse=True)`: a permutation of `s`, non-increasing in
      `key`, with equal-key items in input order. */
  function SortDesc<T(!new)>(s: seq<T>, key: T -> real): (r: seq<T>)
    ensures multiset(r) == multiset(s)
    ensures |r| == |s|
    ensures SortedDesc(r, key)
    ensures Stable(r, s, key)
  {
    if |s| == 0 then []
    else
      var rest := SortDesc(s[1..], key);
      InsertPermutes(s[0], rest, key);
      InsertSorted(s[0], rest, key);
      assert s == [s[0]] + s[1..];
      assert multiset(s) == multiset(s[1..]) + multiset{s[0]};
      assert forall k :: Filter(Insert(s[0], rest, key), HasKey(key, k))
                      == Filter(s, HasKey(key, k)) by {
        forall k
          ensures Filter(Insert(s[0], rest, key), HasKey(key, k)) == Filter(s, HasKey(key, k))
        {
          InsertFilter(s[0], rest, key, k);
        }
      }
      Insert(s[0], rest, key)
  }
}

=== FILE: text.dfy ===
/** The string primitives the game tracker relies on: `lower()`, the whitespace
    test behind `strip()`, and the `in` substring test. */
module Text {

  /** Python's `str.lower()` on one character, restricted to ASCII letters. */
  function LowerChar(c: char): char {
    if 'A' <= c <= 'Z' then (c as int + 32) as char else c
  }

  /** Python's `str.lower()`, restricted to ASCII letters; length is preserved. */
  function Lower(s: string): (r: string)
    ensures |r| == |s|
    ensures forall i :: 0 <= i < |s| ==> r[i] == LowerChar(s[i])
  {
    seq(|s|, i requires 0 <= i < |s| => LowerChar(s[i]))
  }

  /** The characters Python's `str.isspace()` accepts, i.e. what `strip()` removes. */
  predicate IsSpace(c: char) {
    || c == ' '
    || '\t' <= c <= '\r'
    || '\U{1C}' <= c <= '\U{1F}'
    || c == '\U{85}' || c == '\U{A0}' || c == '\U{1680}'
    || '\U{2000}' <= c <= '\U{200A}'
    || c == '\U{2028}' || c == '\U{2029}' || c == '\U{202F}' || c == '\U{205F}'
    || c == '\U{3000}'
  }

  /** `not s or not s.strip()`: the string is empty or only whitespace. */
  predicate IsBlank(s: string) {
    forall i :: 0 <= i < |s| ==> IsSpace(s[i])
  }

  predicate IsPrefix(p: string, s: string) {
    |p| <= |s| && s[..|p|] == p
  }

  /** `needle` occurs in `hay` starting at index `i`. */
  predicate OccursAt(needle: string, hay: string, i: int) {
    0 <= i <= |hay| - |needle| && hay[i..i + |needle|] == needle
  }

  /** `needle` occurs in `hay` at some position. */
  ghost predicate Occurs(needle: string, hay: string) {
    exists i :: OccursAt(needle, hay, i)
  }

  lemma OccursShift(needle: string, hay: string)
    requires |hay| > 0 && !IsPrefix(needle, hay)
    ensures Occurs(needle, hay) <==> Occurs(needle, hay[1..])
  {
    if Occurs(needle, hay) {
      var i :| OccursAt(needle, hay, i);
      assert i != 0 by { assert hay[..|needle|] == hay[0..0 + |needle|]; }
      SliceOfTail(hay, i - 1, |needle|);
      assert OccursAt(needle, hay[1..], i - 1);
    }
    if Occurs(needle, hay[1..]) {
      var i :| OccursAt(needle, hay[1..], i);
      SliceOfTail(hay, i, |needle|);
      assert OccursAt(needle, hay, i + 1);
    }
  }

  /** A slice of the tail is the slice of the whole string one place further on. */
  lemma SliceOfTail(hay: string, i: nat, n: nat)
    requires |hay| > 0 && i + n <= |hay| - 1
    ensures hay[1..][i..i + n] == hay[i + 1..i + 1 + n]
  {
  }

  /** Python's `needle in hay` on strings, scanning left to right. */
  function Contains(hay: string, needle: string): (r: bool)
    ensures r <==> Occurs(needle, hay)
    decreases |hay|
  {
    if IsPrefix(needle, hay) then
      assert OccursAt(needle, hay, 0);
      true
    else if |hay| == 0 then
      false
    else
      OccursShift(needle, hay);
      Contains(hay[1..], needle)
  }

  /** The empty string occurs in every string. */
  lemma EmptyOccursEverywhere(hay: string)
    ensures Contains(hay, "")
  {
    assert OccursAt("", hay, 0);
  }

  /** A needle whose first character is absent from `hay` does not occur in it. */
  lemma AbsentFirstChar(needle: string, hay: string)
    requires |needle| > 0
    requires forall i :: 0 <= i < |hay| ==> hay[i] != needle[0]
    ensures !Contains(hay, needle)
  {
  }

  /** Every character is an ASCII decimal digit. */
  predicate IsDigits(s: string) {
    forall i :: 0 <= i < |s| ==> '0' <= s[i] <= '9'
  }

  /** Python's `str(n)` for a non-negative integer: decimal, no leading zeros. */
  function NatToString(n: nat): (s: string)
    ensures |s| > 0 && IsDigits(s)
    decreases n
  {
    if n < 10 then [('0' as int + n) as char]
    else NatToString(n / 10) + [('0' as int + n % 10) as char]
  }

  /** The value of a decimal digit string. */
  function ParseNat(s: string): nat
    requires IsDigits(s)
  {
    if |s| == 0 then 0
    else ParseNat(s[..|s| - 1]) * 10 + (s[|s| - 1] as int - '0' as int)
  }

  /** Reading back the decimal rendering of `n` gives `n`. */
  lemma {:induction false} ParseNatToString(n: nat)
    ensures ParseNat(NatToString(n)) == n
    decreases n
  {
    var s := NatToString(n);
    if n >= 10 {
      ParseNatToString(n / 10);
      assert s[..|s| - 1] == NatToString(n / 10);
    }
  }
}

=== FILE: wrappers.dfy ===
/** Failure-compatible wrappers used to turn the tracker's exceptions and
    `None` values into explicit results. */
module Wrappers {

  /** An optional value; Python's `None` is `None`. */
  datatype Option<+T> = None | Some(value: T) {

    /** The wrapped value, or `default` when there is none (Python's `x or default`
        for a value that is never falsy when present). */
    function GetOr(default: T): T {
      match this
      case Some(v) => v
      case None => default
    }
  }

  /** The outcome of an operation that may raise: `Success` carries the new value,
      `Failure` the reason the tracker raises or refuses. */
  datatype Result<+T, +E> = Success(value: T) | Failure(error: E) {

    predicate IsFailure() {
      Failure?
    }

    function PropagateFailure<U>(): Result<U, E>
      requires Failure?
    {
      Failure(error)
    }

    function Extract(): T
      requires Success?
    {
      value
    }
  }

  /** Applies `f` to each element in order, collecting the values; the first
      element `f` refuses aborts the whole traversal with its error. */
  function MapAll<T, U, E>(s: seq<T>, f: T -> Result<U, E>): (r: Result<seq<U>, E>)
    ensures r.Success? <==> forall i :: 0 <= i < |s| ==> f(s[i]).Success?
    ensures r.Success? ==> |r.value| == |s| && forall i :: 0 <= i < |s| ==> r.value[i] == f(s[i]).value
    ensures r.Failure? ==> exists i :: && 0 <= i < |s| && f(s[i]).Failure? && r.error == f(s[i]).error
                                       && forall j :: 0 <= j < i ==> f(s[j]).Success?
    decreases |s|
  {
    if |s| == 0 then Success([])
    else
      var head := f(s[0]);
      var rest := MapAll(s[1..], f);
      assert forall i :: 1 <= i < |s| ==> s[i] == s[1..][i - 1];
      if head.Failure? then Failure(head.error)
      else if rest.Failure? then
        assert exists i :: && 0 <= i < |s| && f(s[i]).Failure? && rest.error == f(s[i]).error
                           && forall j :: 0 <= j < i ==> f(s[j]).Success? by {
          var k :| && 0 <= k < |s[1..]| && f(s[1..][k]).Failure? && rest.error == f(s[1..][k]).error
                   && forall j :: 0 <= j < k ==> f(s[1..][j]).Success?;
          assert f(s[k + 1]).Failure? && forall j :: 0 <= j < k + 1 ==> f(s[j]).Success?;
        }
        Failure(rest.error)
      else Success([head.value] + rest.value)
  }
}
